=== FILE: README.md ===
# Benchmark driver routines of the NVM LevelDB fork, in Dafny

This project models the self-contained routines of the fork's benchmark driver,
`nvm/nvm_db_bench.cc`, and proves what they promise. The driver runs a
comma-separated list of benchmarks against a LevelDB-style store. Its own logic,
apart from the database calls, threads and timing around it, consists of the
following routines:

- **String helpers** (`text.dfy`, module `Text`):
  - `TrimSpace` cuts C-locale whitespace off both ends of a slice. It returns the
    bounds `[start, limit)`.
  - `AppendWithSpace` adds a message to a space-separated text.
- **Random text source** (`generator.dfy`, module `Generator`). `RandomGenerator` fills a buffer of
  100-character fragments until it holds at least 1 MiB, which leaves 1048600
  characters. `Generate(len)` then hands out consecutive windows of that buffer,
  going back to the front when a window does not fit in what is left.
- **Per-thread statistics** (`stats.dfy`, module `BenchStats`). This covers only the counting part of `Stats`:
  - the number of finished operations;
  - the stepped progress-report schedule (100, 200, …, 1000, 1500, …);
  - the accumulated message.
- **Mixed workloads**:
  - `workload.dfy`, module `Workloads`. A spec string
    `(write_ratio-table_size-weight;)*` is split with `std::getline` semantics.
    The split is parsed into one `ReadWriteWorkload` per non-empty part, with the
    part's index as its `tid`. `Size` adds up the table sizes in a `size_t`.
  - `selector.dfy`, module `Dice`. The weighted selector lists each workload index
    once per unit of weight (the "dice"), shuffles the list, and picks a face.
    The uniform selector picks an index directly.
- **`Benchmark::Run`** (`benchmark_run.dfy`, module `BenchmarkRun`):
  - The benchmark list is cut at each comma with `strchr`. A trailing comma yields
    an empty last name, which is silently ignored.
  - Each name selects a benchmark, its parameters, and whether it needs a fresh
    database. What the driver then does for the name is recorded as a sequence of
    events.
- **Shared definitions** (`pieces.dfy`, module `Pieces`). The field and join functions that both tokenizers are
  specified with.
- **Arithmetic facts** (`arith.dfy`, module `Arith`). Two facts about division with remainder, used by the proofs of the generator's cursor and of the report schedule.

The comment at the top of the driver says fillsync writes N/100 values, but the code divides the operation count by 1000 (`nvm/nvm_db_bench.cc:28` against line 786). The model follows the code.

Randomness enters as parameters:
- the fragments of the random buffer are `piece: nat -> string`;
- the shuffle's draws are `draw: nat -> nat`;
- the selectors' random numbers are `rand: nat`.

## Model

| member | source | states |
|---|---|---|
| Text.TrimSpace | nvm/nvm_db_bench.cc:206-216 | the returned bounds satisfy 0 <= start <= limit <= the length of s; every dropped character is whitespace; a non-empty result starts and ends with a non-whitespace character |
| Text.TrimUnique | nvm/nvm_db_bench.cc:206-216 | those conditions fix the trimmed text uniquely, so the contract of TrimSpace determines its result |
| Text.TrimPadding | nvm/nvm_db_bench.cc:206-216 | whitespace added around a string leaves its trim unchanged; trimming is idempotent |
| Text.AppendWithSpace | nvm/nvm_db_bench.cc:219-225 | an empty msg leaves str unchanged; otherwise the result is str, then a space exactly when str was non-empty, then msg |
| Text.AppendAllJoins | nvm/nvm_db_bench.cc:219-225 | appending messages one after another from an empty text gives the non-empty messages joined by single spaces |
| BenchStats.ReportStep | nvm/nvm_db_bench.cc:294-301 | the step to the next report point is a multiple of 100 between 100 and 100000 |
| BenchStats.ReportStepGrows | nvm/nvm_db_bench.cc:294-301 | the later the report point, the larger the step |
| BenchStats.NextReport | nvm/nvm_db_bench.cc:294-307 | the next report point lies at least 100 beyond the current one |
| BenchStats.NextReportOnSchedule | nvm/nvm_db_bench.cc:294-307 | a step from a point on the schedule lands on the schedule, and PrevReport undoes it |
| BenchStats.PrevReportOnSchedule | nvm/nvm_db_bench.cc:294-307 | every scheduled point above 100 has a scheduled predecessor that steps to it |
| BenchStats.NextReportMonotonic | nvm/nvm_db_bench.cc:294-307 | the step function is strictly increasing |
| BenchStats.ReportAfterOnSchedule | nvm/nvm_db_bench.cc:292-310 | every point reached from 100 is on the schedule; after k reports the point is at least 100·(k+1) |
| BenchStats.ScheduleReached | nvm/nvm_db_bench.cc:292-310 | every point on the schedule is reached from 100 after some number of reports |
| BenchStats.Stats.constructor | nvm/nvm_db_bench.cc:243 | a new Stats has counted nothing, its first report is due at 100, and its message is empty |
| BenchStats.Stats.Start | nvm/nvm_db_bench.cc:247-258 | resets done to 0, the next report to 100 and the message to empty |
| BenchStats.Stats.AddMessage | nvm/nvm_db_bench.cc:278 | the message becomes AppendWithSpace of the old message and msg |
| BenchStats.Stats.FinishedSingleOp | nvm/nvm_db_bench.cc:292-310 | done grows by exactly 1; a report happens exactly when done reaches the next report point; only then does that point move one schedule step; `0 <= done < nextReport` with the point on the schedule is kept |
| Generator.Advance | nvm/nvm_db_bench.cc:195-200 | the window served ends at least len characters in, and no later than the end of the buffer when the cursor and len are within it |
| Generator.PosAfterCycles | nvm/nvm_db_bench.cc:195-202 | repeated requests of one length len < size end their n-th window at `((n-1) mod (size/len) + 1)·len`, never past the buffer |
| Generator.RandomGenerator.constructor | nvm/nvm_db_bench.cc:180-193 | appending 100-character fragments until the buffer reaches 1048576 leaves exactly 1048600 characters, the k-th 100 of them being the k-th fragment (k < 10486), with the cursor at 0 |
| Generator.RandomGenerator.Generate | nvm/nvm_db_bench.cc:195-202 | the cursor becomes Advance(pos, len, size) and stays within the buffer; the result is the len characters just before the new cursor |
| Dice.BuildDice | nvm/nvm_db_bench.cc:524-527 | the nested push loops build exactly Expand(weights): each index repeated weight times, in index order |
| Dice.ExpandCount | nvm/nvm_db_bench.cc:524-527 | the dice holds index i exactly max(weight_i, 0) times and nothing else |
| Dice.ExpandLength | nvm/nvm_db_bench.cc:524-527 | the dice has as many faces as the positive weights add up to |
| Dice.Shuffle | nvm/nvm_db_bench.cc:528 | whatever is drawn, the swap loop returns a permutation of its input |
| Dice.NewWeightedSelector | nvm/nvm_db_bench.cc:521-529 | the dice of a new selector has exactly the multiset Expand(weights) |
| Dice.FaceIsWorkload | nvm/nvm_db_bench.cc:524-533 | every face of the dice is the index of a workload with positive weight |
| Dice.WeightedSelect | nvm/nvm_db_bench.cc:531-533 | the selected value is a face of the dice |
| Dice.WeightedShare | nvm/nvm_db_bench.cc:524-533 | among the residues of the random number modulo the dice size, exactly weight_i select workload i, whatever order the shuffle left |
| Dice.DiceNonEmpty | nvm/nvm_db_bench.cc:524-533 | the dice is non-empty, so Select does not divide by zero, exactly when some weight is positive |
| Dice.RandomSelect | nvm/nvm_db_bench.cc:514-516 | the selected index lies in `[0, count)` |
| Pieces.FieldsFree | nvm/nvm_db_bench.cc:562-571 | no field of a string holds the delimiter |
| Pieces.JoinFields | nvm/nvm_db_bench.cc:562-571 | joining the fields of s with the delimiter gives back s |
| Pieces.FieldsJoin | nvm/nvm_db_bench.cc:562-571 | cutting a join of delimiter-free pieces gives back the pieces |
| Pieces.FieldsConcat | nvm/nvm_db_bench.cc:741-751 | the fields of `x + d + y` are the fields of x followed by those of y |
| Pieces.FieldsCons | nvm/nvm_db_bench.cc:743-750 | a delimiter-free piece followed by the delimiter is the first field, the rest are the fields of what follows |
| Pieces.LastFieldEmpty | nvm/nvm_db_bench.cc:562-571 | the last field is empty exactly when the string is empty or ends with the delimiter |
| Workloads.GetlineFields | nvm/nvm_db_bench.cc:566-569 | std::getline yields one piece per delimiter, plus one more when s does not end with the delimiter (none for an empty s) |
| Workloads.Split | nvm/nvm_db_bench.cc:562-571 | the getline loop returns the fields of s between delimiters, minus a final empty one |
| Workloads.GetlineFieldsFree | nvm/nvm_db_bench.cc:562-571 | no piece holds the delimiter |
| Workloads.GetlineJoin | nvm/nvm_db_bench.cc:562-571 | the pieces joined with the delimiter rebuild s, up to a single delimiter that ends s |
| Workloads.GetlineFieldsTerminated | nvm/nvm_db_bench.cc:562-571 | delimiter-free pieces that are each followed by the delimiter split back into exactly those pieces |
| Workloads.GetlineFieldsSeparated | nvm/nvm_db_bench.cc:562-571 | delimiter-free pieces separated by the delimiter, the last one non-empty, split back into exactly those pieces |
| Workloads.Stoi | nvm/nvm_db_bench.cc:582-584 | a converted field is a digit string whose value fits an int |
| Workloads.DecimalRoundTrip | nvm/nvm_db_bench.cc:582-584 | the decimal digits of n convert back to n |
| Workloads.ParsePart | nvm/nvm_db_bench.cc:580-587 | a part that parses yields a workload with the given tid |
| Workloads.ParsePartText | nvm/nvm_db_bench.cc:580-587 | a part parses only when it is three decimal digit fields that each fit an int, separated by `-` and possibly followed by one more `-`; the workload's write ratio, table size and weight are the values of the first, second and third field |
| Workloads.ParsePartFromText | nvm/nvm_db_bench.cc:580-587 | conversely, every such text parses, to the workload its three fields denote |
| Workloads.PartOfFields | nvm/nvm_db_bench.cc:580 | splitting such a text at `-` gives back its three fields |
| Workloads.ParsePartErrors | nvm/nvm_db_bench.cc:581-584 | a part fails with WrongFieldCount exactly when it does not have three `-`-fields, and the count it reports is the actual one; a BadNumber failure has three fields and names the first field `std::stoi` refuses, with that refusal |
| Workloads.ParseOnePart | nvm/nvm_db_bench.cc:580-587 | the loop body for one non-empty part, with its field-count check and three conversions in order, computes ParsePart |
| Workloads.OutcomeOf | nvm/nvm_db_bench.cc:578-588 | a part is skipped exactly when it is empty; a parsed part carries its index as tid |
| Workloads.ErrorStops | nvm/nvm_db_bench.cc:581-584 | once a part fails, the later parts do not change the result |
| Workloads.Collect | nvm/nvm_db_bench.cc:575-589 | an error is the failure of one of the parts; a success holds one workload per part that was not skipped |
| Workloads.ParseSpec | nvm/nvm_db_bench.cc:575-589 | the spec is split at `;` with getline semantics, each part handled with its index as tid, and the outcomes collected |
| Workloads.ParseSpecError | nvm/nvm_db_bench.cc:575-589 | a failed parse reports the error of parsing one non-empty part, with that part's index |
| Workloads.CollectShape | nvm/nvm_db_bench.cc:575-589 | collecting succeeds exactly when no part fails, and then yields one workload per non-skipped part, in order, with increasing tids |
| Workloads.CollectAll | nvm/nvm_db_bench.cc:575-589 | parts that all parse collect to exactly their workloads |
| Workloads.CountKeptNonEmpty | nvm/nvm_db_bench.cc:579 | the number of kept parts is the number of non-empty parts |
| Workloads.ParseSpecShape | nvm/nvm_db_bench.cc:573-592 | a spec parses exactly when every non-empty `;`-part parses; then there is one workload per non-empty part, in order, whose tid is that part's index in the split |
| Workloads.ParseFromWorkloadSpec | nvm/nvm_db_bench.cc:573-592 | the loop returns the workloads of ParseSpec, or its error, and a selector whose dice has the multiset Expand of their weights |
| Workloads.PartRoundTrip | nvm/nvm_db_bench.cc:539-540 | the text `write_ratio-table_size-weight` of a workload parses back to that workload |
| Workloads.FormatParseRoundTrip | nvm/nvm_db_bench.cc:539-540 | a spec written from workloads, each part ended by `;`, parses back to exactly those workloads |
| Workloads.Size | nvm/nvm_db_bench.cc:593-599 | the result is the sum of the table sizes modulo 2^64 |
| Workloads.TotalTableSizeBounds | nvm/nvm_db_bench.cc:593-599 | with int table sizes from 0 to INT_MAX, the sum lies between 0 and count·INT_MAX |
| Workloads.SizeWithoutWrap | nvm/nvm_db_bench.cc:593-599 | with such table sizes and count·INT_MAX below 2^64 (a little over 2^33 workloads), the size_t sum does not wrap: Size returns the exact sum |
| Workloads.Chosen | nvm/nvm_db_bench.cc:552-560 | the workload that work/fill dispatch to is one of the mixture's workloads and has positive weight |
| BenchmarkRun.FindFirst | nvm/nvm_db_bench.cc:743 | strchr: no index exactly when the character is absent; otherwise the index of its first occurrence |
| BenchmarkRun.CDiv | nvm/nvm_db_bench.cc:766 | C integer division truncates toward zero: the remainder a - q·b lies in [0, b) for a >= 0 and in (-b, 0] for a < 0 |
| BenchmarkRun.BranchName | nvm/nvm_db_bench.cc:764-839 | the 29 names the chain tests, in the order the driver tests them |
| BenchmarkRun.NamesDistinct | nvm/nvm_db_bench.cc:764-839 | no name is tested by two branches |
| BenchmarkRun.BranchSelection | nvm/nvm_db_bench.cc:764-839 | only a branch that selects a benchmark asks for a fresh database; a branch that selects none does one thing right away; what a branch does right away is dump the heap profile or print a statistics property |
| BenchmarkRun.PlainNameRunsReset | nvm/nvm_db_bench.cc:753-821 | a name other than open, fillbatch, fillsync, fill100K, readrandomsmall and readwhilewriting runs with the values reset before each name: the flags' operation count and value size, one entry per batch, asynchronous writes, the flags' read count or as many reads as operations when that is negative, and the flags' thread count |
| BenchmarkRun.SelectSpec | nvm/nvm_db_bench.cc:764-844 | the first branch whose name matches decides; a name no branch tests selects nothing and is reported unless empty; a recognised name is non-empty, selects a benchmark unless it is heapprofile, stats or sstables, and does nothing right away but dump the heap profile or print a statistics property; only a selected benchmark asks for a fresh database; an adjustment of the parameters is selected only by the name that owns it |
| BenchmarkRun.SelectsBranch | nvm/nvm_db_bench.cc:764-839 | no branch is shadowed by an earlier one: the name each branch tests selects exactly that branch |
| BenchmarkRun.OwnerSelects | nvm/nvm_db_bench.cc:764-821 | conversely, the owner of each adjustment (open, fillbatch, fillsync, fill100K, readrandomsmall, readwhilewriting) does select it |
| BenchmarkRun.FreshExactly | nvm/nvm_db_bench.cc:760-839 | a name asks for a fresh database exactly when it is fillseq, fillbatch, fillrandom, writeskewed, fillsync, fill100K or mixed_workload_fillrandom |
| BenchmarkRun.Adjusted | nvm/nvm_db_bench.cc:753-821 | without an adjustment the parameters are the reset ones; only the batch adjustment changes the batch size, only the sync adjustment sets sync, only the writer-thread adjustment adds a thread, only the open, sync and large-value adjustments change the operation count, only the large-value one the value size, only the fewer-reads one the read count |
| BenchmarkRun.ConfigureSpec | nvm/nvm_db_bench.cc:753-844 | only a selected benchmark asks for a fresh database; an unrecognised name selects nothing and is reported unless empty; a recognised name selects a benchmark unless it is heapprofile, stats or sstables; only fillbatch changes the batch size, only fillsync sets sync, only readwhilewriting adds a thread, only open, fillsync and fill100K change the operation count, only fill100K the value size, only readrandomsmall the read count |
| BenchmarkRun.FieldsAtFirst | nvm/nvm_db_bench.cc:743-750 | cutting at the first comma: the name is what precedes it, and the rest continues after it |
| BenchmarkRun.NextName | nvm/nvm_db_bench.cc:743-750 | one strchr step: the fields of the rest are the name followed by the fields of what follows the comma, or the name alone when the rest holds no comma |
| BenchmarkRun.ForEachName | nvm/nvm_db_bench.cc:741-750 | the strchr loop hands the action each comma-separated field of the list in turn, the last field being whatever follows the last comma, and the result is the actions' events concatenated in that order |
| BenchmarkRun.Run | nvm/nvm_db_bench.cc:741-866 | the events are those of each comma-separated field of the list in turn, the last field being whatever follows the last comma |
| BenchmarkRun.EmptyNameIgnored | nvm/nvm_db_bench.cc:840-844 | an empty name produces no report and no run |
| BenchmarkRun.UnknownReported | nvm/nvm_db_bench.cc:840-844 | a name is reported as unknown exactly when it is non-empty and no branch of the chain tests it |
| BenchmarkRun.ConfigEvents | nvm/nvm_db_bench.cc:846-865 | what the selection does right away comes first, followed by at most two events; RunCarriesConfig says what the run carries and that the reopen precedes it |
| BenchmarkRun.RunCarriesConfig | nvm/nvm_db_bench.cc:846-865 | a run event is the selected benchmark with the thread count and parameters the chain set for the name (lines 753-821), and a destroy-and-reopen of the database comes before it |
| BenchmarkRun.FreshHandled | nvm/nvm_db_bench.cc:846-860 | a name that needs a fresh database gets the skip notice exactly when the existing database is to be used, and the destroy-and-reopen exactly otherwise; no other name gets either |
| BenchmarkRun.RunsExactly | nvm/nvm_db_bench.cc:846-865 | a benchmark runs exactly when the name selects one and it is not skipped because it needs a fresh database while the existing database is in use |
| BenchmarkRun.TrailingCommaIgnored | nvm/nvm_db_bench.cc:741-751 | a trailing comma adds one empty name, which changes nothing the driver does |
| BenchmarkRun.DefaultBenchmarkNames | nvm/nvm_db_bench.cc:46-94 | the default list splits into fillrandom, shortrange, readseq and an empty name, which does nothing |

## Left out

- nvm/nvmem.h and nvm/nvm_manager.h declare the persistent-memory allocator without any function bodies, so they are not part of this model.
- Threads: `ThreadBody`, `RunBenchmark`, `SharedState` and the reader/writer coordination of `ReadWhileWriting` are concurrency coordination with no logic of their own to verify.
- Database, snappy, crc32c and `AtomicPointer` calls: the benchmark bodies (`WriteSeq`, `ReadRandom`, `ReadWriteWorkload::work`/`fillone`, …), `Open`, `DestroyDB` and `PrintStats` have effects that are not visible here. `Run` records them as events (`Ran`, `DbReopened`, `StatsPrinted`).
- Timing, floating point and output: the `Stats` clock fields, the histogram, `Stop`, `Report`, `Merge`, the "report current" latency lines and `PrintHeader`/`PrintEnvironment` are left out. A printed line appears in the model only as the `reported` result of `FinishedSingleOp` or as an event of `Run`.
- `Run` opening the database and printing the header before its loop is left out (database and output).
- Randomness: `Random`, `test::CompressibleString` and the random source of `std::random_shuffle` are parameters. `Dice.Shuffle` follows the swap loop of the usual `random_shuffle` implementation with the draws given.
- Command-line flag parsing in `main` is left out. `Run` takes its flags as a record.
- BenchStats.Stats.FinishedSingleOp: `done_` and `next_report_` are C `int`s; the model counts without the wrap-around past INT_MAX.
- Workloads.Stoi: only plain decimal digit strings are modelled. Leading whitespace, a leading `+` and trailing non-digits, which `std::stoi` accepts, are refused here as `InvalidArgument`. A minus sign never reaches `std::stoi`, because each part is cut at every `-`, so parsing yields no negative write ratio, table size or weight, in the source as in the model. `Size` and the dice construction still handle negative values as the source does: `Size` wraps them into `size_t`, and the dice gives a non-positive weight no face.
- Workloads.ParseFromWorkloadSpec: the driver's `assert` on the field count and the exceptions of `std::stoi` end the program. The model returns them as the error of its result instead.
- Workloads.ParsePart: the model follows a build with assertions enabled, where a part without exactly three `-`-fields stops the program at the assertion (here the `WrongFieldCount` error). In a build with NDEBUG, which the driver itself treats as the normal one (it warns when assertions are enabled, lines 650-653), the assertion does nothing: a part with more than three fields is read from its first three (`1-2-3-4` is the workload 1-2-3), and a part with fewer reads past the end of its fields, which is undefined behaviour. Neither is modelled.
- BenchmarkRun.ConfigureSpec: `num_threads++` for readwhilewriting is counted without `int` wrap-around, and the divisions of `num_` and `reads_` use C truncation on unbounded integers.
- Generator.RandomGenerator.Generate: the model follows the driver's assertion `len < size` after a restart by requiring it; the content of the buffer is whatever the fragment source produced.

=== FILE: arith.dfy ===
/**
 * Two facts about integer multiples and remainders that the report schedule
 * and the generator's cursor arithmetic rest on.
 */
module Arith {

  /** A non-zero multiple of m is at least m away from zero. */
  lemma MultipleAway(d: int, m: int)
    requires m > 0
    ensures d >= 1 ==> d * m >= m
    ensures d <= -1 ==> d * m <= -m
  {
    if d >= 1 {
      assert d * m == (d - 1) * m + m;
    } else if d <= -1 {
      assert d * m == (d + 1) * m - m;
    }
  }

  /** Quotient and remainder are unique. */
  lemma DivModUnique(x: int, m: int, q: int, r: int)
    requires m > 0 && 0 <= r < m && x == q * m + r
    ensures x % m == r
  {
    var q', r' := x / m, x % m;
    assert (q - q') * m == r' - r;
    MultipleAway(q - q', m);
  }
}

=== FILE: benchmark_run.dfy ===
/**
 * Benchmark::Run of the benchmark driver: the comma-separated list of
 * benchmark names is cut into names with strchr, and each name selects the
 * benchmark to run and the parameters to run it with. What the driver then
 * does for a name (report an unknown name, skip a benchmark that needs a
 * fresh database, reopen the database, run the benchmark) is recorded as a
 * sequence of events; the database, the threads and the printing themselves
 * are not part of this model.
 */
module BenchmarkRun {
  import opened Pieces

  datatype Option<T> = None | Some(value: T)

  /** strchr: the index of the first d in s, if there is one. */
  function FindFirst(s: string, d: char): (r: Option<nat>)
    ensures r.None? <==> d !in s
    ensures r.Some? ==> r.value < |s| && s[r.value] == d && d !in s[..r.value]
  {
    if s == [] then None
    else if s[0] == d then Some(0)
    else
      match FindFirst(s[1..], d)
      case None => None
      case Some(i) =>
        assert s[..i + 1] == [s[0]] + s[1..][..i];
        Some(i + 1)
  }

  /** The benchmark member functions a name can select. */
  datatype BenchMethod =
    | OpenBench | WriteSeq | WriteRandom | WriteSkewed
    | ReadSequential | ShortRangeQuery | ReadReverse | ReadRandom
    | ReadMissing | SeekRandom | ReadHot | DeleteSeq | DeleteRandom
    | ReadWhileWriting | Compact | Crc32c | AcquireLoad
    | SnappyCompress | SnappyUncompress | MixedWorkload | MixedWorkloadFillRandom

  /** The command-line flags Run reads. */
  datatype Flags = Flags(
    benchmarks: string,
    num: int,
    readOps: int,
    valueSize: int,
    threads: int,
    useExistingDb: bool)

  /** The per-benchmark parameters Run resets before each name. */
  datatype Params = Params(
    num: int,
    readOps: int,
    valueSize: int,
    entriesPerBatch: int,
    sync: bool)

  /** What one name selects: the benchmark (if any), whether it needs a
      fresh database, its parameters and thread count, and what the
      selection itself does right away. */
  datatype Config = Config(
    bench: Option<BenchMethod>,
    freshDb: bool,
    params: Params,
    threads: int,
    immediate: seq<Event>)

  /** What Run does, in order. */
  datatype Event =
    | UnknownBenchmark(name: string)
    | HeapProfileDumped
    | StatsPrinted(property: string)
    | SkippedExistingDb(name: string)
    | DbReopened  // the database is destroyed and opened afresh
    | Ran(bench: BenchMethod, threads: int, params: Params)

  /** The list used when no --benchmarks flag is given. */
  const DefaultBenchmarks: string := "fillrandom,shortrange,readseq,"

  /** How a selection changes the reset parameters. */
  datatype Adjust =
    | Unchanged
    | ScaleOpen    // num / 10000, but at least 1
    | BigBatch     // 1000 entries per batch
    | SyncFill     // num / 1000, synchronous writes
    | LargeValues  // num / 1000, values of 100000 bytes
    | FewerReads   // reads / 1000
    | WriterThread // one more thread

  /** One branch of the selection chain. */
  datatype Selection = Selection(bench: Option<BenchMethod>, freshDb: bool, adjust: Adjust, immediate: seq<Event>)

  function Bench(m: BenchMethod, freshDb: bool, adjust: Adjust): Selection
  {
    Selection(Some(m), freshDb, adjust, [])
  }

  /** The number of branches in the selection chain. */
  const ChainLength: nat := 29

  /** The name the k-th branch of the selection chain tests, in the order
      the driver tests them. */
  function BranchName(k: nat): string
    requires k < ChainLength
  {
    if k == 0 then "open"
    else if k == 1 then "fillseq"
    else if k == 2 then "fillbatch"
    else if k == 3 then "fillrandom"
    else if k == 4 then "writeskewed"
    else if k == 5 then "overwrite"
    else if k == 6 then "fillsync"
    else if k == 7 then "fill100K"
    else if k == 8 then "readseq"
    else if k == 9 then "shortrange"
    else if k == 10 then "readreverse"
    else if k == 11 then "readrandom"
    else if k == 12 then "readmissing"
    else if k == 13 then "seekrandom"
    else if k == 14 then "readhot"
    else if k == 15 then "readrandomsmall"
    else if k == 16 then "deleteseq"
    else if k == 17 then "deleterandom"
    else if k == 18 then "readwhilewriting"
    else if k == 19 then "compact"
    else if k == 20 then "crc32c"
    else if k == 21 then "acquireload"
    else if k == 22 then "snappycomp"
    else if k == 23 then "snappyuncomp"
    else if k == 24 then "heapprofile"
    else if k == 25 then "stats"
    else if k == 26 then "sstables"
    else if k == 27 then "mixed_workload"
    else "mixed_workload_fillrandom"
  }

  /** What the k-th branch of the selection chain selects. Only a branch
      that selects a benchmark asks for a fresh database; a branch that
      selects none does one thing right away, and what a branch does right
      away is dump the heap profile or print a statistics property. */
  function BranchSelection(k: nat): (sel: Selection)
    requires k < ChainLength
    ensures sel.freshDb ==> sel.bench.Some?
    ensures sel.bench.None? ==> |sel.immediate| == 1
    ensures forall e :: e in sel.immediate ==> e.HeapProfileDumped? || e.StatsPrinted?
  {
    if k == 0 then Bench(OpenBench, false, ScaleOpen)
    else if k == 1 then Bench(WriteSeq, true, Unchanged)
    else if k == 2 then Bench(WriteSeq, true, BigBatch)
    else if k == 3 then Bench(WriteRandom, true, Unchanged)
    else if k == 4 then Bench(WriteSkewed, true, Unchanged)
    else if k == 5 then Bench(WriteRandom, false, Unchanged)
    else if k == 6 then Bench(WriteRandom, true, SyncFill)
    else if k == 7 then Bench(WriteRandom, true, LargeValues)
    else if k == 8 then Bench(ReadSequential, false, Unchanged)
    else if k == 9 then Bench(ShortRangeQuery, false, Unchanged)
    else if k == 10 then Bench(ReadReverse, false, Unchanged)
    else if k == 11 then Bench(ReadRandom, false, Unchanged)
    else if k == 12 then Bench(ReadMissing, false, Unchanged)
    else if k == 13 then Bench(SeekRandom, false, Unchanged)
    else if k == 14 then Bench(ReadHot, false, Unchanged)
    else if k == 15 then Bench(ReadRandom, false, FewerReads)
    else if k == 16 then Bench(DeleteSeq, false, Unchanged)
    else if k == 17 then Bench(DeleteRandom, false, Unchanged)
    else if k == 18 then Bench(ReadWhileWriting, false, WriterThread)
    else if k == 19 then Bench(Compact, false, Unchanged)
    else if k == 20 then Bench(Crc32c, false, Unchanged)
    else if k == 21 then Bench(AcquireLoad, false, Unchanged)
    else if k == 22 then Bench(SnappyCompress, false, Unchanged)
    else if k == 23 then Bench(SnappyUncompress, false, Unchanged)
    else if k == 24 then Selection(None, false, Unchanged, [HeapProfileDumped])
    else if k == 25 then Selection(None, false, Unchanged, [StatsPrinted("leveldb.stats")])
    else if k == 26 then Selection(None, false, Unchanged, [StatsPrinted("leveldb.sstables")])
    else if k == 27 then Bench(MixedWorkload, false, Unchanged)
    else Bench(MixedWorkloadFillRandom, true, Unchanged)
  }

  /** C's integer division, which truncates toward zero. */
  function CDiv(a: int, b: int): (q: int)
    requires b > 0
    ensures var r := a - q * b; (a >= 0 ==> 0 <= r < b) && (a < 0 ==> -b < r <= 0)
  {
    if a >= 0 then a / b else -((-a) / b)
  }

  /** The parameters every name starts from: the flags' values, one entry
      per batch, asynchronous writes, and as many reads as operations when
      the read count is negative. */
  function ResetParams(flags: Flags): Params
  {
    Params(flags.num, if flags.readOps < 0 then flags.num else flags.readOps, flags.valueSize, 1, false)
  }

  /** The parameters and thread count a selection runs with. Without an
      adjustment they are the reset ones; each adjustment changes only its
      own parameters, or adds the one thread. */
  function Adjusted(adjust: Adjust, flags: Flags): (r: (Params, int))
    ensures adjust == Unchanged ==> r == (ResetParams(flags), flags.threads)
    ensures var (p, threads) := r;
      && (p.entriesPerBatch != 1 ==> adjust == BigBatch)
      && (p.sync ==> adjust == SyncFill)
      && (threads != flags.threads ==> adjust == WriterThread)
      && (p.num != flags.num ==> adjust == ScaleOpen || adjust == SyncFill || adjust == LargeValues)
      && (p.valueSize != flags.valueSize ==> adjust == LargeValues)
      && (p.readOps != ResetParams(flags).readOps ==> adjust == FewerReads)
  {
    var p := ResetParams(flags);
    match adjust
    case Unchanged => (p, flags.threads)
    case ScaleOpen =>
      var n := CDiv(p.num, 10000);
      (p.(num := if n < 1 then 1 else n), flags.threads)
    case BigBatch => (p.(entriesPerBatch := 1000), flags.threads)
    case SyncFill => (p.(num := CDiv(p.num, 1000), sync := true), flags.threads)
    case LargeValues => (p.(num := CDiv(p.num, 1000), valueSize := 100 * 1000), flags.threads)
    case FewerReads => (p.(readOps := CDiv(p.readOps, 1000)), flags.threads)
    case WriterThread => (p, flags.threads + 1)
  }

  /** The selection of a name no branch tests: nothing, and a report
      unless the name is empty. */
  function Unknown(name: string): Selection
  {
    Selection(None, false, Unchanged, if name == [] then [] else [UnknownBenchmark(name)])
  }

  /** What a selection amounts to under the given flags. */
  function Build(sel: Selection, flags: Flags): Config
  {
    var (params, threads) := Adjusted(sel.adjust, flags);
    Config(sel.bench, sel.freshDb, params, threads, sel.immediate)
  }

  /** The first branch from the k-th on that tests name, or ChainLength
      when none does. */
  function FirstFrom(name: string, k: nat): nat
    requires k <= ChainLength
    decreases ChainLength - k
  {
    if k == ChainLength then ChainLength
    else if BranchName(k) == name then k
    else FirstFrom(name, k + 1)
  }

  /** What the selection chain selects for name: the first branch that
      tests it decides. */
  function Select(name: string): Selection
  {
    var k := FirstFrom(name, 0);
    if k < ChainLength then BranchSelection(k) else Unknown(name)
  }

  /** The selection chain of Run for one name. */
  function Configure(name: string, flags: Flags): Config
  {
    Build(Select(name), flags)
  }

  /** Whether some branch of the chain from the k-th on tests name. */
  predicate KnownFrom(name: string, k: nat)
    requires k <= ChainLength
    decreases ChainLength - k
  {
    k < ChainLength && (BranchName(k) == name || KnownFrom(name, k + 1))
  }

  /** Whether some branch of the chain tests name. */
  predicate Known(name: string)
  {
    KnownFrom(name, 0)
  }

  /** The search from the k-th branch on stops at a branch that tests the
      name, and finds one exactly when there is one. */
  lemma {:induction false} FirstFound(name: string, k: nat)
    requires k <= ChainLength
    ensures k <= FirstFrom(name, k) <= ChainLength
    ensures FirstFrom(name, k) < ChainLength ==> BranchName(FirstFrom(name, k)) == name
    ensures FirstFrom(name, k) < ChainLength <==> KnownFrom(name, k)
    decreases ChainLength - k
  {
    if k < ChainLength && BranchName(k) != name {
      FirstFound(name, k + 1);
    }
  }

  /** Every branch tests a non-empty name. */
  lemma BranchNamed(k: nat)
    requires k < ChainLength
    ensures |BranchName(k)| > 0
  {
  }

  /** Only the heapprofile, stats and sstables branches select no
      benchmark. */
  lemma BranchWithoutBench(k: nat)
    requires k < ChainLength
    ensures BranchSelection(k).bench.None? ==> k == 24 || k == 25 || k == 26
    ensures BranchName(24) == "heapprofile"
    ensures BranchName(25) == "stats"
    ensures BranchName(26) == "sstables"
  {
  }

  /** The one branch that makes adjustment a (none for Unchanged). */
  function AdjustBranch(a: Adjust): nat
  {
    match a
    case Unchanged => ChainLength
    case ScaleOpen => 0
    case BigBatch => 2
    case SyncFill => 6
    case LargeValues => 7
    case FewerReads => 15
    case WriterThread => 18
  }

  /** Each parameter adjustment belongs to one branch, and these are the
      names of those branches. */
  lemma BranchAdjusts(k: nat)
    requires k < ChainLength
    ensures BranchSelection(k).adjust != Unchanged ==> k == AdjustBranch(BranchSelection(k).adjust)
    ensures BranchName(0) == "open"
    ensures BranchName(2) == "fillbatch"
    ensures BranchName(6) == "fillsync"
    ensures BranchName(7) == "fill100K"
    ensures BranchName(15) == "readrandomsmall"
    ensures BranchName(18) == "readwhilewriting"
  {
  }

  /** The name of the one branch that makes adjustment a (none for
      Unchanged). */
  function AdjustOwner(a: Adjust): string
  {
    match a
    case Unchanged => ""
    case ScaleOpen => "open"
    case BigBatch => "fillbatch"
    case SyncFill => "fillsync"
    case LargeValues => "fill100K"
    case FewerReads => "readrandomsmall"
    case WriterThread => "readwhilewriting"
  }

  /** What the selection chain selects. A name the chain does not know
      selects nothing and is reported unless it is empty; a known name is
      not empty and selects a benchmark unless it is heapprofile, stats or
      sstables; only a selected benchmark may ask for a fresh database; and
      an adjustment of the parameters is selected only by its own name. */
  lemma SelectSpec(name: string) returns (sel: Selection)
    ensures sel == Select(name)
    ensures sel.freshDb ==> sel.bench.Some?
    ensures !Known(name) ==> sel == Unknown(name)
    ensures Known(name) ==>
      && name != []
      && (forall e :: e in sel.immediate ==> e.HeapProfileDumped? || e.StatsPrinted?)
      && (sel.bench.None? ==> name == "heapprofile" || name == "stats" || name == "sstables")
    ensures sel.adjust != Unchanged ==> name == AdjustOwner(sel.adjust)
  {
    sel := Select(name);
    FirstFound(name, 0);
    var j := FirstFrom(name, 0);
    if j < ChainLength {
      BranchNamed(j);
      BranchWithoutBench(j);
      BranchAdjusts(j);
    }
  }

  /** What the selection chain does to the run of a name. Only open,
      fillbatch, fillsync, fill100K and readrandomsmall change the reset
      parameters, and only readwhilewriting adds a thread. */
  lemma ConfigureSpec(name: string, flags: Flags) returns (c: Config)
    ensures c == Configure(name, flags)
    ensures c.freshDb ==> c.bench.Some?
    ensures !Known(name) ==>
      && c.bench.None? && !c.freshDb
      && c.immediate == (if name == [] then [] else [UnknownBenchmark(name)])
    ensures Known(name) ==>
      && name != []
      && (forall e :: e in c.immediate ==> e.HeapProfileDumped? || e.StatsPrinted?)
      && (c.bench.None? ==> name == "heapprofile" || name == "stats" || name == "sstables")
    ensures c.params.entriesPerBatch != 1 ==> name == "fillbatch"
    ensures c.params.sync ==> name == "fillsync"
    ensures c.threads != flags.threads ==> name == "readwhilewriting"
    ensures c.params.num != flags.num ==> name == "open" || name == "fillsync" || name == "fill100K"
    ensures c.params.valueSize != flags.valueSize ==> name == "fill100K"
    ensures c.params.readOps != ResetParams(flags).readOps ==> name == "readrandomsmall"
  {
    var sel := SelectSpec(name);
    c := Build(sel, flags);
  }

  /** A name that owns no adjustment (every benchmark name but open,
      fillbatch, fillsync, fill100K, readrandomsmall and readwhilewriting,
      and every name the chain does not know) runs with the values the
      parameters are reset to before each name: the flags' operation count
      and value size, one entry per batch, asynchronous writes, the flags'
      read count or as many reads as operations when that is negative, and
      the flags' thread count. */
  lemma PlainNameRunsReset(name: string, flags: Flags)
    requires name != "open" && name != "fillbatch" && name != "fillsync"
    requires name != "fill100K" && name != "readrandomsmall" && name != "readwhilewriting"
    ensures var c := Configure(name, flags);
      && c.params.num == flags.num && c.params.valueSize == flags.valueSize
      && c.params.entriesPerBatch == 1 && !c.params.sync
      && c.params.readOps == (if flags.readOps < 0 then flags.num else flags.readOps)
      && c.threads == flags.threads
  {
    var sel := SelectSpec(name);
  }

  /** The chain tests no name twice. */
  lemma NamesDistinct(i: nat, k: nat)
    requires i < k < ChainLength
    ensures BranchName(i) != BranchName(k)
  {
  }

  /** The search from the j-th branch on, for the name of a later k-th
      branch, stops at that branch. */
  lemma {:induction false} FirstFromReaches(j: nat, k: nat)
    requires j <= k < ChainLength
    ensures FirstFrom(BranchName(k), j) == k
    decreases k - j
  {
    if j < k {
      NamesDistinct(j, k);
      FirstFromReaches(j + 1, k);
    }
  }

  /** No branch is shadowed by an earlier one: the name of each branch
      selects exactly what that branch selects. */
  lemma SelectsBranch(k: nat)
    requires k < ChainLength
    ensures Select(BranchName(k)) == BranchSelection(k)
  {
    FirstFromReaches(0, k);
  }

  /** Each adjustment of the parameters is made by the name that owns it. */
  lemma OwnerSelects(a: Adjust)
    requires a != Unchanged
    ensures Select(AdjustOwner(a)).adjust == a
  {
    BranchAdjusts(0);
    SelectsBranch(AdjustBranch(a));
  }

  /** The branches that ask for a fresh database. */
  lemma FreshBranch(k: nat)
    requires k < ChainLength
    ensures BranchSelection(k).freshDb <==> k == 1 || k == 2 || k == 3 || k == 4 || k == 6 || k == 7 || k == 28
    ensures BranchName(1) == "fillseq" && BranchName(2) == "fillbatch" && BranchName(3) == "fillrandom"
    ensures BranchName(4) == "writeskewed" && BranchName(6) == "fillsync" && BranchName(7) == "fill100K"
    ensures BranchName(28) == "mixed_workload_fillrandom"
  {
  }

  /** The names of the benchmarks that start from a fresh database. */
  predicate FreshName(name: string)
  {
    || name == "fillseq" || name == "fillbatch" || name == "fillrandom" || name == "writeskewed"
    || name == "fillsync" || name == "fill100K" || name == "mixed_workload_fillrandom"
  }

  lemma FreshOnlyNamed(name: string)
    ensures Select(name).freshDb ==> FreshName(name)
  {
    FirstFound(name, 0);
    var j := FirstFrom(name, 0);
    if j < ChainLength {
      FreshBranch(j);
    }
  }

  lemma FreshNamed(name: string)
    requires FreshName(name)
    ensures Select(name).freshDb
  {
    FreshBranch(0);
    if name == "fillseq" {
      SelectsBranch(1);
    } else if name == "fillbatch" {
      SelectsBranch(2);
    } else if name == "fillrandom" {
      SelectsBranch(3);
    } else if name == "writeskewed" {
      SelectsBranch(4);
    } else if name == "fillsync" {
      SelectsBranch(6);
    } else if name == "fill100K" {
      SelectsBranch(7);
    } else {
      SelectsBranch(28);
    }
  }

  /** A name asks for a fresh database exactly when it is one of the fill
      benchmarks that write a new database. */
  lemma FreshExactly(name: string, flags: Flags)
    ensures Configure(name, flags).freshDb <==> FreshName(name)
  {
    FreshOnlyNamed(name);
    if FreshName(name) {
      FreshNamed(name);
    }
  }

  /** What Run does for a name once it is configured as c: the selection's
      own effect, then either the skip notice or the database reopen for a
      benchmark that needs a fresh database, then the run of the selected
      benchmark unless it was skipped. */
  function ConfigEvents(name: string, c: Config, useExistingDb: bool): (r: seq<Event>)
    ensures |c.immediate| <= |r| <= |c.immediate| + 2
    ensures r[..|c.immediate|] == c.immediate
  {
    var skipped := c.freshDb && useExistingDb;
    c.immediate
      + (if !c.freshDb then [] else if useExistingDb then [SkippedExistingDb(name)] else [DbReopened])
      + (if c.bench.Some? && !skipped then [Ran(c.bench.value, c.threads, c.params)] else [])
  }

  /** Everything Run does for one name. */
  function NameEvents(name: string, flags: Flags): seq<Event>
  {
    ConfigEvents(name, Configure(name, flags), flags.useExistingDb)
  }

  /** f applied to each of xs in turn, the results concatenated. */
  function ConcatMap<T, U>(xs: seq<T>, f: T -> seq<U>): seq<U>
  {
    if xs == [] then [] else f(xs[0]) + ConcatMap(xs[1..], f)
  }

  lemma {:induction false} ConcatMapAppend<T, U>(xs: seq<T>, ys: seq<T>, f: T -> seq<U>)
    ensures ConcatMap(xs + ys, f) == ConcatMap(xs, f) + ConcatMap(ys, f)
  {
    if xs == [] {
      assert xs + ys == ys;
    } else {
      var zs := xs + ys;
      assert zs[0] == xs[0] && zs[1..] == xs[1..] + ys;
      ConcatMapAppend(xs[1..], ys, f);
      var a, b, c := f(xs[0]), ConcatMap(xs[1..], f), ConcatMap(ys, f);
      assert ConcatMap(zs, f) == a + (b + c);
      assert a + (b + c) == (a + b) + c;
    }
  }

  /** What Run does for one name, as a function of the name. */
  function NameAction(flags: Flags): string -> seq<Event>
  {
    name => NameEvents(name, flags)
  }

  /** What Run does for each of names, in order. */
  function RunEvents(names: seq<string>, flags: Flags): seq<Event>
  {
    ConcatMap(names, NameAction(flags))
  }

  lemma RunEventsCons(name: string, names: seq<string>, flags: Flags)
    ensures RunEvents([name] + names, flags) == NameEvents(name, flags) + RunEvents(names, flags)
  {
    assert ([name] + names)[1..] == names;
  }

  lemma RunEventsAppend(names: seq<string>, more: seq<string>, flags: Flags)
    ensures RunEvents(names + more, flags) == RunEvents(names, flags) + RunEvents(more, flags)
  {
    ConcatMapAppend(names, more, NameAction(flags));
  }

  /** Cutting at the first comma: the first field is what precedes it. */
  lemma FieldsAtFirst(rest: string, i: nat)
    requires i < |rest| && rest[i] == ',' && ',' !in rest[..i]
    ensures Fields(rest, ',') == [rest[..i]] + Fields(rest[i + 1..], ',')
  {
    assert rest == rest[..i] + [','] + rest[i + 1..];
    FieldsCons(rest[..i], rest[i + 1..], ',');
  }

  /** One strchr step of Run's loop: the name up to the first comma and
      what follows that comma, or the whole rest and nothing more when it
      holds no comma. */
  method NextName(rest: string) returns (name: string, tail: string, more: bool)
    ensures Fields(rest, ',') == [name] + (if more then Fields(tail, ',') else [])
    ensures more ==> |tail| < |rest|
    ensures !more ==> tail == []
  {
    match FindFirst(rest, ',') {
      case None =>
        FieldsNoDelim(rest, ',');
        name, tail, more := rest, [], false;
      case Some(i) =>
        FieldsAtFirst(rest, i);
        name, tail, more := rest[..i], rest[i + 1..], true;
    }
  }

  /** The loop of Run: cuts the list at each comma with strchr and does
      act for each name, the names being exactly the comma-separated fields
      of the list, the last one being whatever follows the last comma. */
  method ForEachName(list: string, act: string -> seq<Event>) returns (events: seq<Event>)
    ensures events == ConcatMap(Fields(list, ','), act)
  {
    events := [];
    var rest := list;
    var more := true;
    ghost var done: seq<string> := [];
    ghost var pending := Fields(list, ',');
    while more
      invariant Fields(list, ',') == done + pending
      invariant events == ConcatMap(done, act)
      invariant more ==> pending == Fields(rest, ',')
      invariant !more ==> pending == []
      decreases |rest| + (if more then 1 else 0)
    {
      var name: string;
      name, rest, more := NextName(rest);
      ghost var names := if more then Fields(rest, ',') else [];
      TakeName(done, name, names, act);
      events := events + act(name);
      done, pending := done + [name], names;
    }
    assert done + [] == done;
  }

  /** Moving one name from what is pending to what is done. */
  lemma TakeName(done: seq<string>, name: string, names: seq<string>, act: string -> seq<Event>)
    ensures done + ([name] + names) == (done + [name]) + names
    ensures ConcatMap(done + [name], act) == ConcatMap(done, act) + act(name)
  {
    ConcatMapAppend(done, [name], act);
    assert ConcatMap([name], act) == act(name) + ConcatMap([name][1..], act);
  }

  /** Run: acts on each name of the benchmark list in turn. */
  method Run(flags: Flags) returns (events: seq<Event>)
    ensures events == RunEvents(Fields(flags.benchmarks, ','), flags)
  {
    events := ForEachName(flags.benchmarks, NameAction(flags));
  }

  /** An empty name does nothing at all: no report, no run. */
  lemma EmptyNameIgnored(flags: Flags)
    ensures NameEvents([], flags) == []
  {
    var c := ConfigureSpec([], flags);
  }

  /** A name is reported as unknown exactly when it is not empty and the
      chain does not know it. */
  lemma UnknownReported(name: string, flags: Flags)
    ensures UnknownBenchmark(name) in NameEvents(name, flags) <==> name != [] && !Known(name)
  {
    var c := ConfigureSpec(name, flags);
  }

  /** A benchmark runs for a name exactly when the name selects one that
      either keeps the database or may have a fresh one. */
  lemma RunsExactly(name: string, flags: Flags)
    ensures var c := Configure(name, flags);
      (exists e :: e in NameEvents(name, flags) && e.Ran?) <==>
        c.bench.Some? && !(c.freshDb && flags.useExistingDb)
  {
    var c := ConfigureSpec(name, flags);
    var mid := if !c.freshDb then [] else if flags.useExistingDb then [SkippedExistingDb(name)] else [DbReopened];
    var last := if c.bench.Some? && !(c.freshDb && flags.useExistingDb) then [Ran(c.bench.value, c.threads, c.params)] else [];
    var events := NameEvents(name, flags);
    assert events == (c.immediate + mid) + last;
    if last != [] {
      assert last[0] in events;
    } else {
      assert events == c.immediate + mid;
    }
  }

  /** A name that needs a fresh database is skipped with a notice when the
      existing database is to be used, and otherwise has the database
      destroyed and reopened first; no other name does either. */
  lemma FreshHandled(name: string, flags: Flags)
    ensures var c := Configure(name, flags);
      && (SkippedExistingDb(name) in NameEvents(name, flags) <==> c.freshDb && flags.useExistingDb)
      && (DbReopened in NameEvents(name, flags) <==> c.freshDb && !flags.useExistingDb)
  {
    var c := ConfigureSpec(name, flags);
    var mid := if !c.freshDb then [] else if flags.useExistingDb then [SkippedExistingDb(name)] else [DbReopened];
    var last := if c.bench.Some? && !(c.freshDb && flags.useExistingDb) then [Ran(c.bench.value, c.threads, c.params)] else [];
    assert NameEvents(name, flags) == c.immediate + mid + last;
    assert SkippedExistingDb(name) !in c.immediate && DbReopened !in c.immediate;
  }

  /** The run of a name is the benchmark it selects, with the thread count
      and parameters the chain set for it, and it comes after the database
      has been destroyed and reopened. */
  lemma RunCarriesConfig(name: string, flags: Flags)
    ensures var c := Configure(name, flags);
      var r := NameEvents(name, flags);
      && (forall e :: e in r && e.Ran? ==> c.bench.Some? && e == Ran(c.bench.value, c.threads, c.params))
      && (forall i, j :: 0 <= i < |r| && 0 <= j < |r| && r[i] == DbReopened && r[j].Ran? ==> i < j)
  {
    var c := ConfigureSpec(name, flags);
    var mid := if !c.freshDb then [] else if flags.useExistingDb then [SkippedExistingDb(name)] else [DbReopened];
    var last := if c.bench.Some? && !(c.freshDb && flags.useExistingDb) then [Ran(c.bench.value, c.threads, c.params)] else [];
    var r := NameEvents(name, flags);
    assert r == c.immediate + mid + last;
    assert forall e :: e in c.immediate ==> !e.Ran? && e != DbReopened;
  }

  /** A trailing comma adds an empty last name, which changes nothing. */
  lemma TrailingCommaIgnored(s: string, flags: Flags)
    ensures Fields(s + [','], ',') == Fields(s, ',') + [[]]
    ensures RunEvents(Fields(s + [','], ','), flags) == RunEvents(Fields(s, ','), flags)
  {
    FieldsConcat(s, [], ',');
    assert s + [','] + [] == s + [','];
    RunEventsAppend(Fields(s, ','), [[]], flags);
    EmptyNameIgnored(flags);
  }

  /** A list of three comma-free names each followed by a comma: three
      names and an empty fourth one. */
  lemma ThreeTerminated(a: string, b: string, c: string)
    requires ',' !in a && ',' !in b && ',' !in c
    ensures Fields(a + [','] + b + [','] + c + [','], ',') == [a, b, c, []]
  {
    var s3 := c + [','] + [];
    var s2 := b + [','] + s3;
    var s1 := a + [','] + s2;
    FieldsCons(c, [], ',');
    FieldsCons(b, s3, ',');
    FieldsCons(a, s2, ',');
    assert a + [','] + b + [','] + c + [','] == s1;
  }


  /** The default list holds three benchmarks and an empty fourth name,
      which is ignored. */
  lemma DefaultBenchmarkNames(flags: Flags)
    ensures Fields(DefaultBenchmarks, ',') == ["fillrandom", "shortrange", "readseq", ""]
    ensures NameEvents(Fields(DefaultBenchmarks, ',')[3], flags) == []
  {
    assert DefaultBenchmarks == "fillrandom" + [','] + "shortrange" + [','] + "readseq" + [','];
    ThreeTerminated("fillrandom", "shortrange", "readseq");
    EmptyNameIgnored(flags);
  }
}

=== FILE: generator.dfy ===
/**
 * RandomGenerator of the benchmark driver: a buffer of a little over 1 MiB
 * of (compressible) random text, filled once, and a cursor that hands out
 * consecutive windows of it, starting over at the front when a request does
 * not fit in what is left.
 */
module Generator {
  import opened Arith

  /** The buffer is filled until it holds at least this many characters. */
  const DataTarget: nat := 1048576
  /** Length of each fragment appended while filling the buffer. */
  const PieceLen: nat := 100

  /** Where the cursor stands after serving len characters from pos in a
      buffer of size characters: a request that does not fit is served from
      the front. */
  function Advance(pos: nat, len: nat, size: nat): (p: nat)
    ensures len <= p
    ensures pos <= size && len <= size ==> p <= size
  {
    if pos + len > size then len else pos + len
  }

  /** The cursor after n requests of len characters each, from the front. */
  function PosAfter(n: nat, len: nat, size: nat): nat
  {
    if n == 0 then 0 else Advance(PosAfter(n - 1, len, size), len, size)
  }

  /** With m == size / len: q windows of len fit in size exactly when
      q <= m. */
  lemma WindowsFit(q: nat, len: nat, size: nat)
    requires 0 < len
    ensures q * len <= size <==> q <= size / len
  {
    var m := size / len;
    assert size == m * len + size % len;
    assert (q - m) * len == q * len - m * len;
    MultipleAway(q - m, len);
    if q == m {
      assert q * len == m * len;
    }
  }

  /** Counting up by one modulo m. */
  lemma ModStep(k: nat, m: nat)
    requires m > 0
    ensures (k + 1) % m == if k % m == m - 1 then 0 else k % m + 1
  {
    var q, r := k / m, k % m;
    if r == m - 1 {
      DivModUnique(k + 1, m, q + 1, 0);
    } else {
      DivModUnique(k + 1, m, q, r + 1);
    }
  }

  /** One more request after the window ending at (r + 1) * len: the next
      window ends one len further, or at len after a restart once
      size / len windows have been served. */
  lemma CycleStep(r: nat, len: nat, size: nat)
    requires 0 < len && r < size / len
    ensures Advance((r + 1) * len, len, size) == (if r + 1 == size / len then 1 else r + 2) * len
  {
    WindowsFit(r + 2, len, size);
    assert (r + 1) * len + len == (r + 2) * len;
  }

  /** The step from the (n-1)-th to the n-th window, in terms of the
      window count modulo size / len. */
  lemma PosAfterStep(n: nat, len: nat, size: nat)
    requires 0 < len && size / len > 0 && n > 1
    requires PosAfter(n - 1, len, size) == ((n - 2) % (size / len) + 1) * len
    ensures PosAfter(n, len, size) == ((n - 1) % (size / len) + 1) * len
  {
    var m := size / len;
    var r, k := (n - 2) % m, (n - 1) % m;
    CycleStep(r, len, size);
    ModStep(n - 2, m);
    if r + 1 == m {
      assert k == 0;
    } else {
      assert k == r + 1;
    }
  }

  /** The end of the (j % (size / len) + 1)-th window lies in the buffer. */
  lemma WindowEndFits(j: nat, len: nat, size: nat)
    requires 0 < len <= size
    ensures (j % (size / len) + 1) * len <= size
  {
    var m := size / len;
    WindowsFit(1, len, size);
    WindowsFit(j % m + 1, len, size);
  }

  /** Repeated requests of one length len < size walk through the buffer in
      steps of len and start over after size / len windows: the n-th window
      (n >= 1) ends at ((n - 1) % (size / len) + 1) * len. */
  lemma {:induction false} PosAfterCycles(n: nat, len: nat, size: nat)
    requires 0 < len < size && n > 0
    ensures PosAfter(n, len, size) == ((n - 1) % (size / len) + 1) * len
  {
    assert size / len > 0 by {
      WindowsFit(1, len, size);
    }
    if n > 1 {
      PosAfterCycles(n - 1, len, size);
      PosAfterStep(n, len, size);
    } else {
      assert PosAfter(n, len, size) == Advance(0, len, size) == len;
      DivModUnique(0, size / len, 0, 0);
    }
  }

  /** In particular such a sequence of requests never runs past the buffer,
      so the assertion in Generate never fails for it. */
  lemma PosAfterWithin(n: nat, len: nat, size: nat)
    requires 0 < len < size && n > 0
    ensures len <= PosAfter(n, len, size) <= size
  {
    PosAfterCycles(n, len, size);
    WindowEndFits(n - 1, len, size);
  }

  class RandomGenerator {
    var data: string
    var pos: nat

    ghost predicate Valid()
      reads this
    {
      pos <= |data| && |data| >= DataTarget
    }

    /** Fills the buffer with fragments until it reaches DataTarget.
        `piece(k)` stands for the k-th fragment produced by the random
        compressible-string source. */
    constructor (piece: nat -> string)
      requires forall k :: |piece(k)| == PieceLen
      ensures Valid() && pos == 0
      ensures |data| == 1048600
      ensures forall k :: 0 <= k < 10486 ==> data[PieceLen * k..PieceLen * (k + 1)] == piece(k)
    {
      var buf: string := [];
      var k: nat := 0;
      while |buf| < DataTarget
        invariant |buf| == PieceLen * k
        invariant k > 0 ==> PieceLen * (k - 1) < DataTarget
        invariant forall j :: 0 <= j < k ==> buf[PieceLen * j..PieceLen * (j + 1)] == piece(j)
        decreases DataTarget - |buf|
      {
        forall j | 0 <= j < k
          ensures (buf + piece(k))[PieceLen * j..PieceLen * (j + 1)] == piece(j)
        {
          assert (buf + piece(k))[PieceLen * j..PieceLen * (j + 1)] == buf[PieceLen * j..PieceLen * (j + 1)];
        }
        assert (buf + piece(k))[PieceLen * k..PieceLen * (k + 1)] == piece(k);
        buf := buf + piece(k);
        k := k + 1;
      }
      data := buf;
      pos := 0;
    }

    /** Generate: the next window of len characters. The caller must not ask
        for a window that needs a restart at the front and is not shorter
        than the whole buffer. */
    method Generate(len: nat) returns (slice: string)
      requires Valid()
      requires pos + len > |data| ==> len < |data|
      modifies this`pos
      ensures Valid()
      ensures pos == Advance(old(pos), len, |data|)
      ensures |slice| == len && slice == data[pos - len..pos]
    {
      if pos + len > |data| {
        pos := 0;
      }
      pos := pos + len;
      slice := data[pos - len..pos];
    }
  }
}

=== FILE: pieces.dfy ===
/**
 * Fields of a string between occurrences of a delimiter, and joining them
 * back. This is the vocabulary in which the benchmark driver's tokenizers
 * (the std::getline loop of WorkloadMixture::Split and the strchr loop at the
 * top of Benchmark::Run) are specified.
 */
module Pieces {

  /** Number of occurrences of d in s. */
  function Count(s: string, d: char): nat
  {
    if s == [] then 0
    else Count(s[..|s| - 1], d) + (if s[|s| - 1] == d then 1 else 0)
  }

  /** One character of input appended to a list of fields: a delimiter opens
      a new empty field, any other character extends the last field. */
  function Step(f: seq<string>, c: char, d: char): seq<string>
    requires |f| >= 1
  {
    if c == d then f + [[]] else f[..|f| - 1] + [f[|f| - 1] + [c]]
  }

  /** The pieces of s between successive occurrences of d, including the
      (possibly empty) piece before the first d and the one after the last. */
  function Fields(s: string, d: char): (f: seq<string>)
    ensures |f| == Count(s, d) + 1
  {
    if s == [] then [[]] else Step(Fields(s[..|s| - 1], d), s[|s| - 1], d)
  }

  /** No field holds the delimiter. */
  lemma {:induction false} FieldsFree(s: string, d: char)
    ensures forall k :: 0 <= k < |Fields(s, d)| ==> d !in Fields(s, d)[k]
  {
    if s != [] {
      FieldsFree(s[..|s| - 1], d);
    }
  }

  /** The pieces of ps with one d between each two neighbours. */
  function Join(ps: seq<string>, d: char): string
  {
    if ps == [] then []
    else if |ps| == 1 then ps[0]
    else Join(ps[..|ps| - 1], d) + [d] + ps[|ps| - 1]
  }

  /** Joining after one more character of input. */
  lemma JoinStep(f: seq<string>, c: char, d: char)
    requires |f| >= 1
    ensures Join(Step(f, c, d), d) == Join(f, d) + [c]
  {
    var g := Step(f, c, d);
    if c == d {
      assert g[..|g| - 1] == f;
    } else if |f| > 1 {
      assert g[..|g| - 1] == f[..|f| - 1];
    }
  }

  /** Joining the fields of s gives back s. */
  lemma {:induction false} JoinFields(s: string, d: char)
    ensures Join(Fields(s, d), d) == s
  {
    if s != [] {
      var init, c := s[..|s| - 1], s[|s| - 1];
      JoinFields(init, d);
      JoinStep(Fields(init, d), c, d);
      assert s == init + [c];
    }
  }

  /** A string without delimiter is a single field. */
  lemma {:induction false} FieldsNoDelim(p: string, d: char)
    requires d !in p
    ensures Fields(p, d) == [p]
  {
    if p != [] {
      FieldsNoDelim(p[..|p| - 1], d);
      assert p == p[..|p| - 1] + [p[|p| - 1]];
    }
  }

  /** Step only touches the last field. */
  lemma StepAfter(fx: seq<string>, fy: seq<string>, c: char, d: char)
    requires |fy| >= 1
    ensures Step(fx + fy, c, d) == fx + Step(fy, c, d)
  {
    if c != d {
      assert (fx + fy)[..|fx + fy| - 1] == fx + fy[..|fy| - 1];
    }
  }

  /** The fields of x + [d] + y are those of x followed by those of y. */
  lemma {:induction false} FieldsConcat(x: string, y: string, d: char)
    ensures Fields(x + [d] + y, d) == Fields(x, d) + Fields(y, d)
  {
    var s := x + [d] + y;
    if y == [] {
      assert s[..|s| - 1] == x;
    } else {
      var y', c := y[..|y| - 1], y[|y| - 1];
      FieldsConcat(x, y', d);
      assert s[..|s| - 1] == x + [d] + y';
      assert Fields(s, d) == Step(Fields(x, d) + Fields(y', d), c, d);
      StepAfter(Fields(x, d), Fields(y', d), c, d);
    }
  }

  /** A delimiter-free piece followed by the delimiter is the first field. */
  lemma FieldsCons(a: string, rest: string, d: char)
    requires d !in a
    ensures Fields(a + [d] + rest, d) == [a] + Fields(rest, d)
  {
    FieldsConcat(a, rest, d);
    FieldsNoDelim(a, d);
  }

  /** Splitting a join of delimiter-free pieces gives back those pieces. */
  lemma {:induction false} FieldsJoin(ps: seq<string>, d: char)
    requires |ps| >= 1
    requires forall k :: 0 <= k < |ps| ==> d !in ps[k]
    ensures Fields(Join(ps, d), d) == ps
  {
    if |ps| == 1 {
      FieldsNoDelim(ps[0], d);
    } else {
      var init, last := ps[..|ps| - 1], ps[|ps| - 1];
      assert forall k :: 0 <= k < |init| ==> init[k] == ps[k];
      FieldsJoin(init, d);
      assert Join(ps, d) == Join(init, d) + [d] + last;
      FieldsConcat(Join(init, d), last, d);
      FieldsNoDelim(last, d);
      assert ps == init + [last];
    }
  }

  /** The last field is empty exactly when s is empty or ends with d. */
  lemma LastFieldEmpty(s: string, d: char)
    ensures var f := Fields(s, d);
      f[|f| - 1] == [] <==> (s == [] || s[|s| - 1] == d)
  {
  }

  /** A character that is neither the delimiter nor in any piece is not in
      their join. */
  lemma {:induction false} JoinAvoids(ps: seq<string>, d: char, c: char)
    requires c != d
    requires forall k :: 0 <= k < |ps| ==> c !in ps[k]
    ensures c !in Join(ps, d)
  {
    if |ps| > 1 {
      JoinAvoids(ps[..|ps| - 1], d, c);
    }
  }
}

=== FILE: selector.dfy ===
/**
 * The two workload selectors of the benchmark driver's mixed workload.
 * RandomWorkloadSelector picks a workload index uniformly from a random
 * number; WeightedRandomWorkloadSelector builds a "dice" that lists each
 * workload index once per unit of that workload's weight, shuffles it, and
 * picks a face of the dice.
 */
module Dice {

  function Max0(w: int): nat
  {
    if w < 0 then 0 else w
  }

  /** w copies of i (none when w <= 0). */
  function Repeat(i: int, w: int): (r: seq<int>)
    ensures |r| == Max0(w)
    ensures forall k :: 0 <= k < |r| ==> r[k] == i
  {
    if w <= 0 then [] else Repeat(i, w - 1) + [i]
  }

  /** The dice before shuffling: each index i of weights listed
      weights[i] times, in index order. */
  function Expand(weights: seq<int>): seq<int>
  {
    if weights == [] then []
    else Expand(weights[..|weights| - 1]) + Repeat(|weights| - 1, weights[|weights| - 1])
  }

  /** The sum of the positive weights. */
  function TotalWeight(weights: seq<int>): nat
  {
    if weights == [] then 0
    else TotalWeight(weights[..|weights| - 1]) + Max0(weights[|weights| - 1])
  }

  lemma RepeatCount(i: int, w: int, x: int)
    ensures multiset(Repeat(i, w))[x] == if x == i then Max0(w) else 0
  {
    if w > 0 {
      RepeatCount(i, w - 1, x);
    }
  }

  /** The dice shows face i exactly weights[i] times (no times for a
      non-positive weight) and shows nothing that is not a workload index. */
  lemma {:induction false} ExpandCount(weights: seq<int>, x: int)
    ensures multiset(Expand(weights))[x] == if 0 <= x < |weights| then Max0(weights[x]) else 0
  {
    if weights != [] {
      var n := |weights|;
      var init, last := weights[..n - 1], Repeat(n - 1, weights[n - 1]);
      ExpandCount(init, x);
      RepeatCount(n - 1, weights[n - 1], x);
      assert Expand(weights) == Expand(init) + last;
      assert multiset(Expand(weights))[x] == multiset(Expand(init))[x] + multiset(last)[x];
      if 0 <= x < n - 1 {
        assert init[x] == weights[x];
      }
    }
  }

  /** The dice has as many faces as the positive weights add up to. */
  lemma {:induction false} ExpandLength(weights: seq<int>)
    ensures |Expand(weights)| == TotalWeight(weights)
  {
    if weights != [] {
      ExpandLength(weights[..|weights| - 1]);
    }
  }

  /** Every face of a dice built from weights is the index of a workload
      whose weight is positive. */
  lemma FaceIsWorkload(weights: seq<int>, dice: seq<int>, k: nat)
    requires multiset(dice) == multiset(Expand(weights))
    requires k < |dice|
    ensures 0 <= dice[k] < |weights| && weights[dice[k]] > 0
  {
    assert dice[k] in multiset(dice);
    ExpandCount(weights, dice[k]);
  }

  /** The constructor's nested loops: for each workload i, push i once per
      unit of its weight. */
  method BuildDice(weights: seq<int>) returns (dice: seq<int>)
    ensures dice == Expand(weights)
  {
    dice := [];
    var i := 0;
    while i < |weights|
      invariant 0 <= i <= |weights|
      invariant dice == Expand(weights[..i])
    {
      var weight := weights[i];
      var j := 0;
      while j < weight
        invariant 0 <= j <= Max0(weight)
        invariant dice == Expand(weights[..i]) + Repeat(i, j)
      {
        dice := dice + [i];
        j := j + 1;
      }
      assert weights[..i + 1][..i] == weights[..i];
      i := i + 1;
    }
    assert weights[..|weights|] == weights;
  }

  /** The shuffle: for each position i from 1 on, swap it with a position
      drawn from [0, i]. `draw(i)` stands for the random number drawn at
      step i. Whatever is drawn, the result is a rearrangement of d. */
  method Shuffle(d: seq<int>, draw: nat -> nat) returns (r: seq<int>)
    ensures |r| == |d| && multiset(r) == multiset(d)
  {
    r := d;
    if |r| == 0 {
      return;
    }
    var i := 1;
    while i < |r|
      invariant 1 <= i <= |r| == |d|
      invariant multiset(r) == multiset(d)
    {
      var j := draw(i) % (i + 1);
      var ri, rj := r[i], r[j];
      r := r[i := rj][j := ri];
      i := i + 1;
    }
  }

  datatype WeightedSelector = WeightedSelector(dice: seq<int>)

  /** WeightedRandomWorkloadSelector's constructor: the dice is a
      rearrangement of Expand(weights). */
  method NewWeightedSelector(weights: seq<int>, draw: nat -> nat) returns (sel: WeightedSelector)
    ensures multiset(sel.dice) == multiset(Expand(weights))
  {
    var dice := BuildDice(weights);
    dice := Shuffle(dice, draw);
    sel := WeightedSelector(dice);
  }

  /** WeightedRandomWorkloadSelector::Select: the face at the random number
      modulo the number of faces. An empty dice would divide by zero. */
  function WeightedSelect(sel: WeightedSelector, rand: nat): (k: int)
    requires |sel.dice| > 0
    ensures k in sel.dice
  {
    sel.dice[rand % |sel.dice|]
  }

  /** RandomWorkloadSelector::Select: a workload index from the random
      number. No workloads would divide by zero. */
  function RandomSelect(count: nat, rand: nat): (k: int)
    requires count > 0
    ensures 0 <= k < count
  {
    rand % count
  }

  /** The positions of the dice that show face i. */
  function FacePositions(dice: seq<int>, i: int): set<nat>
  {
    set m: nat | m < |dice| && dice[m] == i
  }

  /** Face i shows at exactly as many positions as the dice holds copies of
      it. */
  lemma {:induction false} FacePositionsCount(dice: seq<int>, i: int)
    ensures |FacePositions(dice, i)| == multiset(dice)[i]
  {
    if dice != [] {
      var n := |dice|;
      var init := dice[..n - 1];
      FacePositionsCount(init, i);
      assert dice == init + [dice[n - 1]];
      if dice[n - 1] == i {
        assert FacePositions(dice, i) == FacePositions(init, i) + {n - 1};
      } else {
        assert FacePositions(dice, i) == FacePositions(init, i);
      }
    }
  }

  /** The weighting works: of the |dice| residues of the random number, the
      weighted selector picks workload i on exactly weights[i] of them,
      whatever order the shuffle left the dice in. */
  lemma WeightedShare(weights: seq<int>, sel: WeightedSelector, i: nat)
    requires multiset(sel.dice) == multiset(Expand(weights))
    requires i < |weights|
    ensures |set m: nat | m < |sel.dice| && sel.dice[m] == i| == Max0(weights[i])
  {
    FacePositionsCount(sel.dice, i);
    ExpandCount(weights, i);
    assert FacePositions(sel.dice, i) == set m: nat | m < |sel.dice| && sel.dice[m] == i;
  }

  /** The dice has a face, so Select is defined, exactly when some weight
      is positive. */
  lemma DiceNonEmpty(weights: seq<int>, sel: WeightedSelector)
    requires multiset(sel.dice) == multiset(Expand(weights))
    ensures |sel.dice| > 0 <==> exists i :: 0 <= i < |weights| && weights[i] > 0
  {
    if |sel.dice| > 0 {
      FaceIsWorkload(weights, sel.dice, 0);
    }
    if i :| 0 <= i < |weights| && weights[i] > 0 {
      ExpandCount(weights, i);
      assert i in multiset(sel.dice);
    }
  }
}

=== FILE: stats.dfy ===
/**
 * The counting part of the benchmark driver's per-thread Stats: the number of
 * finished operations, the progress-report schedule and the accumulated
 * message. Timing, the latency histogram and the printed reports are not
 * part of this model.
 */
module BenchStats {
  import opened Text
  import opened Arith

  /** How far the next progress report moves once the current one is due:
      the step grows with the report point. */
  function ReportStep(next: int): (step: int)
    ensures 100 <= step <= 100000 && step % 100 == 0
  {
    if next < 1000 then 100
    else if next < 5000 then 500
    else if next < 10000 then 1000
    else if next < 50000 then 5000
    else if next < 100000 then 10000
    else if next < 500000 then 50000
    else 100000
  }

  /** The later the report point, the larger the step to the next one. */
  lemma ReportStepGrows(a: int, b: int)
    requires a <= b
    ensures ReportStep(a) <= ReportStep(b)
  {
  }

  /** The report point that follows `next`. */
  function NextReport(next: int): (n: int)
    ensures n >= next + 100
  {
    next + ReportStep(next)
  }

  /** The report points the schedule can reach from its start at 100:
      multiples of 100 up to 1000, of 500 up to 5000, of 1000 up to 10000,
      of 5000 up to 50000, of 10000 up to 100000, of 50000 up to 500000 and
      of 100000 beyond. */
  predicate OnSchedule(n: int)
  {
    || (100 <= n <= 1000 && n % 100 == 0)
    || (1000 < n <= 5000 && n % 500 == 0)
    || (5000 < n <= 10000 && n % 1000 == 0)
    || (10000 < n <= 50000 && n % 5000 == 0)
    || (50000 < n <= 100000 && n % 10000 == 0)
    || (100000 < n <= 500000 && n % 50000 == 0)
    || (500000 < n && n % 100000 == 0)
  }

  /** The report point before `n`: undoes NextReport. */
  function PrevReport(n: int): int
  {
    if n <= 1000 then n - 100
    else if n <= 5000 then n - 500
    else if n <= 10000 then n - 1000
    else if n <= 50000 then n - 5000
    else if n <= 100000 then n - 10000
    else if n <= 500000 then n - 50000
    else n - 100000
  }

  /** Within a band of multiples of step that ends at top, one step from a
      multiple below top lands on a multiple no later than top. */
  lemma BandStep(n: int, step: int, top: int)
    requires step > 0 && n % step == 0 && top % step == 0 && n < top
    ensures n + step <= top && (n + step) % step == 0
  {
    var q, t := n / step, top / step;
    assert (t - q) * step == top - n;
    MultipleAway(t - q, step);
    assert (q + 1) * step == n + step;
    DivModUnique(n + step, step, q + 1, 0);
  }

  /** Going back one step from a multiple of step above bottom lands on a
      multiple of step no lower than bottom. */
  lemma BandStepBack(n: int, step: int, bottom: int)
    requires step > 0 && n % step == 0 && bottom % step == 0 && n > bottom
    ensures n - step >= bottom && (n - step) % step == 0
  {
    var q, b := n / step, bottom / step;
    assert (q - b) * step == n - bottom;
    MultipleAway(q - b, step);
    assert (q - 1) * step == n - step;
    DivModUnique(n - step, step, q - 1, 0);
  }

  /** Moving to the next report point stays on the schedule, and the step
      taken never skips over a point where the step size changes. */
  lemma NextReportOnSchedule(n: int)
    requires OnSchedule(n)
    ensures OnSchedule(NextReport(n))
    ensures PrevReport(NextReport(n)) == n
  {
    if n < 1000 {
      BandStep(n, 100, 1000);
    } else if 1000 < n < 5000 {
      BandStep(n, 500, 5000);
    } else if 5000 < n < 10000 {
      BandStep(n, 1000, 10000);
    } else if 10000 < n < 50000 {
      BandStep(n, 5000, 50000);
    } else if 50000 < n < 100000 {
      BandStep(n, 10000, 100000);
    } else if 100000 < n < 500000 {
      BandStep(n, 50000, 500000);
    } else if 500000 < n {
      BandStep(n, 100000, n + 100000);
    }
  }

  /** Every report point after the first is reached from exactly one
      earlier point: the schedule is the chain 100, 200, ..., 1000, 1500, ... */
  lemma PrevReportOnSchedule(n: int)
    requires OnSchedule(n) && n > 100
    ensures OnSchedule(PrevReport(n))
    ensures NextReport(PrevReport(n)) == n
  {
    if n <= 1000 {
      BandStepBack(n, 100, 100);
    } else if n <= 5000 {
      BandStepBack(n, 500, 1000);
    } else if n <= 10000 {
      BandStepBack(n, 1000, 5000);
    } else if n <= 50000 {
      BandStepBack(n, 5000, 10000);
    } else if n <= 100000 {
      BandStepBack(n, 10000, 50000);
    } else if n <= 500000 {
      BandStepBack(n, 50000, 100000);
    } else {
      BandStepBack(n, 100000, 500000);
    }
  }

  /** Later report points are followed by later report points. */
  lemma NextReportMonotonic(n: int, m: int)
    requires n < m
    ensures NextReport(n) < NextReport(m)
  {
  }

  class Stats {
    var done: int
    var nextReport: int
    var message: string

    /** At most `done` operations are behind, the next report is still
        ahead, and it lies on the schedule. */
    ghost predicate Valid()
      reads this
    {
      0 <= done < nextReport && OnSchedule(nextReport)
    }

    constructor ()
      ensures Valid()
      ensures done == 0 && nextReport == 100 && message == []
    {
      done, nextReport, message := 0, 100, [];
    }

    /** Start: resets the counters and clears the message. */
    method Start()
      modifies this
      ensures Valid()
      ensures done == 0 && nextReport == 100 && message == []
    {
      nextReport := 100;
      done := 0;
      message := [];
    }

    /** AddMessage: appends msg to the message with a separating space. */
    method AddMessage(msg: string)
      modifies this`message
      ensures message == AppendWithSpace(old(message), msg)
    {
      message := AppendWithSpace(message, msg);
    }

    /** FinishedSingleOp: counts one operation. `reported` says whether the
        progress line is printed; it is exactly when `done` reaches the next
        report point, which then moves one step along the schedule. */
    method FinishedSingleOp() returns (reported: bool)
      requires Valid()
      modifies this`done, this`nextReport
      ensures Valid()
      ensures done == old(done) + 1
      ensures reported <==> done == old(nextReport)
      ensures nextReport == if reported then NextReport(old(nextReport)) else old(nextReport)
    {
      done := done + 1;
      reported := done >= nextReport;
      if reported {
        NextReportOnSchedule(nextReport);
        if nextReport < 1000 {
          nextReport := nextReport + 100;
        } else if nextReport < 5000 {
          nextReport := nextReport + 500;
        } else if nextReport < 10000 {
          nextReport := nextReport + 1000;
        } else if nextReport < 50000 {
          nextReport := nextReport + 5000;
        } else if nextReport < 100000 {
          nextReport := nextReport + 10000;
        } else if nextReport < 500000 {
          nextReport := nextReport + 50000;
        } else {
          nextReport := nextReport + 100000;
        }
      }
    }
  }

  /** The report point after k reports, starting from 100. */
  function ReportAfter(k: nat): int
  {
    if k == 0 then 100 else NextReport(ReportAfter(k - 1))
  }

  /** Every point of the chain starting at 100 is on the schedule, and the
      chain grows by at least 100 per report. */
  lemma {:induction false} ReportAfterOnSchedule(k: nat)
    ensures OnSchedule(ReportAfter(k))
    ensures ReportAfter(k) >= 100 * (k + 1)
  {
    if k > 0 {
      ReportAfterOnSchedule(k - 1);
      NextReportOnSchedule(ReportAfter(k - 1));
    }
  }

  /** Conversely, every point on the schedule is reached: OnSchedule
      describes exactly the report points of the chain. */
  lemma {:induction false} ScheduleReached(n: int) returns (k: nat)
    requires OnSchedule(n)
    ensures ReportAfter(k) == n
    decreases n
  {
    if n == 100 {
      k := 0;
    } else {
      PrevReportOnSchedule(n);
      var j := ScheduleReached(PrevReport(n));
      k := j + 1;
    }
  }
}

=== FILE: text.dfy ===
/**
 * The benchmark driver's two string helpers: TrimSpace, which cuts the
 * whitespace off both ends of a slice, and AppendWithSpace, which adds a
 * message to a space-separated text (the way Stats accumulates its message).
 */
module Text {
  import opened Pieces

  /** `isspace` in the "C" locale: space, tab, newline, vertical tab,
      form feed and carriage return. */
  predicate IsSpace(c: char)
  {
    c == ' ' || c == '\t' || c == '\n' || c == '\U{000B}' || c == '\U{000C}' || c == '\r'
  }

  /** s[start..limit] is s with its leading and trailing whitespace cut off:
      everything dropped is whitespace, and a non-empty result starts and
      ends with a non-whitespace character. */
  predicate IsTrimOf(s: string, start: nat, limit: nat)
  {
    && start <= limit <= |s|
    && (forall i :: 0 <= i < start ==> IsSpace(s[i]))
    && (forall i :: limit <= i < |s| ==> IsSpace(s[i]))
    && (start < limit ==> !IsSpace(s[start]) && !IsSpace(s[limit - 1]))
  }

  /** TrimSpace: returns the slice s[start..limit]. The first loop skips
      leading whitespace, the second backs the limit over trailing
      whitespace but never below start. */
  method TrimSpace(s: string) returns (start: nat, limit: nat)
    ensures IsTrimOf(s, start, limit)
  {
    start := 0;
    while start < |s| && IsSpace(s[start])
      invariant start <= |s|
      invariant forall i :: 0 <= i < start ==> IsSpace(s[i])
    {
      start := start + 1;
    }
    limit := |s|;
    while limit > start && IsSpace(s[limit - 1])
      invariant start <= limit <= |s|
      invariant forall i :: limit <= i < |s| ==> IsSpace(s[i])
    {
      limit := limit - 1;
    }
  }

  /** The trim of a string is unique: any two bounds that both satisfy
      IsTrimOf cut out the same text, so TrimSpace's contract fixes its
      result. */
  lemma TrimUnique(s: string, a1: nat, l1: nat, a2: nat, l2: nat)
    requires IsTrimOf(s, a1, l1) && IsTrimOf(s, a2, l2)
    ensures s[a1..l1] == s[a2..l2]
  {
  }

  predicate AllSpace(w: string)
  {
    forall i :: 0 <= i < |w| ==> IsSpace(w[i])
  }

  /** Whitespace added around a string does not change its trim, and
      trimming a trimmed string changes nothing. */
  lemma TrimPadding(t: string, a: nat, l: nat, w1: string, w2: string)
    requires IsTrimOf(t, a, l) && AllSpace(w1) && AllSpace(w2)
    ensures IsTrimOf(w1 + t + w2, |w1| + a, |w1| + l)
    ensures (w1 + t + w2)[|w1| + a..|w1| + l] == t[a..l]
    ensures IsTrimOf(t[a..l], 0, l - a)
  {
    var s := w1 + t + w2;
    forall i | 0 <= i < |w1| + a ensures IsSpace(s[i]) {
      if i >= |w1| { assert s[i] == t[i - |w1|]; }
    }
    forall i | |w1| + l <= i < |s| ensures IsSpace(s[i]) {
      if i < |w1| + |t| { assert s[i] == t[i - |w1|]; } else { assert s[i] == w2[i - |w1| - |t|]; }
    }
    assert s[|w1| + a..|w1| + l] == t[a..l];
  }

  /** AppendWithSpace(str, msg): the text after appending msg to str with a
      separating space. An empty msg leaves str as it is; a space goes in
      only between two non-empty parts. */
  function AppendWithSpace(str: string, msg: string): (r: string)
    ensures msg == [] ==> r == str
    ensures msg != [] ==> |r| == |str| + (if str == [] then 0 else 1) + |msg|
    ensures r[..|str|] == str && r[|r| - |msg|..] == msg
    ensures msg != [] && str != [] ==> r[|str|] == ' '
  {
    if msg == [] then str
    else if str == [] then msg
    else str + [' '] + msg
  }

  /** The text after appending each of msgs in turn, starting from str. */
  function AppendAll(str: string, msgs: seq<string>): string
  {
    if msgs == [] then str
    else AppendWithSpace(AppendAll(str, msgs[..|msgs| - 1]), msgs[|msgs| - 1])
  }

  /** The non-empty ones of msgs, in order. */
  function NonEmpty(msgs: seq<string>): (r: seq<string>)
    ensures forall k :: 0 <= k < |r| ==> r[k] != []
  {
    if msgs == [] then []
    else if msgs[|msgs| - 1] == [] then NonEmpty(msgs[..|msgs| - 1])
    else NonEmpty(msgs[..|msgs| - 1]) + [msgs[|msgs| - 1]]
  }

  /** A join of non-empty pieces is empty only when there are no pieces. */
  lemma JoinNonEmpty(ps: seq<string>, d: char)
    requires ps != [] && ps[|ps| - 1] != []
    ensures Join(ps, d) != []
  {
  }

  /** Appending messages one by one from an empty text yields the non-empty
      messages joined by single spaces: empty messages leave no trace and no
      doubled or dangling spaces appear. */
  lemma {:induction false} AppendAllJoins(msgs: seq<string>)
    ensures AppendAll([], msgs) == Join(NonEmpty(msgs), ' ')
  {
    if msgs != [] {
      var init, m := msgs[..|msgs| - 1], msgs[|msgs| - 1];
      AppendAllJoins(init);
      if m != [] {
        var ne := NonEmpty(init);
        if ne != [] {
          JoinNonEmpty(ne, ' ');
          assert (ne + [m])[..|ne + [m]| - 1] == ne;
        }
      }
    }
  }
}

=== FILE: workload.dfy ===
/**
 * WorkloadMixture of the benchmark driver: a mixed workload described by a
 * spec string of the form (write_ratio-table_size-weight;)*, parsed into one
 * read/write workload per non-empty ';'-part, plus a weighted selector over
 * them.
 */
module Workloads {
  import opened Pieces
  import Text
  import Dice

  /** A ReadWriteWorkload: its table id, the size of its key range, the
      percentage of writes and its weight in the mixture. */
  datatype Workload = ReadWrite(tid: int, tableSize: int, writeRatio: int, weight: int)

  /** What std::stoi makes of a field: a value, or one of its two
      exceptions. */
  datatype Conversion = Converted(value: int) | InvalidArgument | OutOfRange

  datatype ParseError =
    | WrongFieldCount(part: nat, fields: nat)
    | BadNumber(part: nat, field: string, failure: Conversion)

  datatype Result<T> = Ok(value: T) | Err(error: ParseError)

  datatype Mixture = Mixture(workloads: seq<Workload>, selector: Dice.WeightedSelector)

  const IntMax: int := 2147483647

  // ---------------------------------------------------------------------
  // Split: the std::getline loop

  /** What repeated std::getline calls extract from s: the fields between
      delimiters, except that a last field that is empty (s is empty or ends
      with d) is not produced, because getline fails when it reaches the end
      without extracting anything. */
  function GetlineFields(s: string, d: char): (r: seq<string>)
    ensures |r| == Count(s, d) + (if s == [] || s[|s| - 1] == d then 0 else 1)
  {
    LastFieldEmpty(s, d);
    var all := Fields(s, d);
    if all[|all| - 1] == [] then all[..|all| - 1] else all
  }

  /** Split: the pieces of s between occurrences of delim, left to right. */
  method Split(s: string, delim: char) returns (elems: seq<string>)
    ensures elems == GetlineFields(s, delim)
  {
    var item: string := [];
    elems := [];
    var i := 0;
    while i < |s|
      invariant 0 <= i <= |s|
      invariant Fields(s[..i], delim) == elems + [item]
    {
      assert s[..i + 1][..i] == s[..i];
      if s[i] == delim {
        elems := elems + [item];
        item := [];
      } else {
        item := item + [s[i]];
      }
      i := i + 1;
    }
    assert s[..|s|] == s;
    if item != [] {
      elems := elems + [item];
    }
  }

  /** Joining the pieces of Split(s, d) gives back s, up to the one
      delimiter that ends s, if it does. */
  lemma GetlineJoin(s: string, d: char)
    ensures Join(GetlineFields(s, d), d) + (if s != [] && s[|s| - 1] == d then [d] else []) == s
  {
    JoinFields(s, d);
    LastFieldEmpty(s, d);
    var all := Fields(s, d);
    if s != [] && s[|s| - 1] == d {
      assert Count(s, d) >= 1;
      assert all[..|all| - 1] + [all[|all| - 1]] == all;
    }
  }

  /** No piece of Split(s, d) holds the delimiter. */
  lemma GetlineFieldsFree(s: string, d: char)
    ensures forall k :: 0 <= k < |GetlineFields(s, d)| ==> d !in GetlineFields(s, d)[k]
  {
    FieldsFree(s, d);
  }

  /** Split undoes joining pieces that hold no delimiter, when each piece is
      followed by the delimiter... */
  lemma GetlineFieldsTerminated(ps: seq<string>, d: char)
    requires forall k :: 0 <= k < |ps| ==> d !in ps[k]
    ensures GetlineFields(Join(ps + [[]], d), d) == ps
  {
    FieldsJoin(ps + [[]], d);
    assert (ps + [[]])[..|ps|] == ps;
  }

  /** ...and when the last piece is not empty. */
  lemma GetlineFieldsSeparated(ps: seq<string>, d: char)
    requires ps != [] && ps[|ps| - 1] != []
    requires forall k :: 0 <= k < |ps| ==> d !in ps[k]
    ensures GetlineFields(Join(ps, d), d) == ps
  {
    FieldsJoin(ps, d);
  }

  // ---------------------------------------------------------------------
  // std::stoi, on plain decimal digit strings

  predicate IsDigit(c: char)
  {
    '0' as int <= c as int <= '9' as int
  }

  /** s is made of decimal digits only. */
  predicate AllDigits(s: string)
  {
    s == [] || (AllDigits(s[..|s| - 1]) && IsDigit(s[|s| - 1]))
  }

  predicate IsDigits(s: string)
  {
    s != [] && AllDigits(s)
  }

  function DigitValue(c: char): nat
    requires IsDigit(c)
  {
    c as int - '0' as int
  }

  /** The number a string of decimal digits denotes. */
  function DecimalValue(s: string): nat
    requires AllDigits(s)
  {
    if s == [] then 0
    else 10 * DecimalValue(s[..|s| - 1]) + DigitValue(s[|s| - 1])
  }

  /** The decimal digits of n, without leading zeros. */
  function DecimalString(n: nat): (s: string)
    ensures IsDigits(s)
  {
    var last := (('0' as int) + n % 10) as char;
    if n < 10 then [last] else DecimalString(n / 10) + [last]
  }

  lemma {:induction false} DecimalRoundTrip(n: nat)
    ensures DecimalValue(DecimalString(n)) == n
  {
    if n >= 10 {
      DecimalRoundTrip(n / 10);
      var s := DecimalString(n);
      assert s[..|s| - 1] == DecimalString(n / 10);
    }
  }

  /** std::stoi on a decimal digit string: its value, or OutOfRange when it
      does not fit an int. Anything that is not a digit string is refused
      as InvalidArgument. */
  function Stoi(s: string): (c: Conversion)
    ensures c.Converted? ==> IsDigits(s) && 0 <= c.value <= IntMax
  {
    if !IsDigits(s) then InvalidArgument
    else if DecimalValue(s) > IntMax then OutOfRange
    else Converted(DecimalValue(s))
  }

  // ---------------------------------------------------------------------
  // ParseFromWorkloadSpec

  /** One non-empty ';'-part, the tid-th: three '-'-fields, converted in
      order write ratio, table size, weight. */
  function ParsePart(p: string, tid: nat): (r: Result<Workload>)
    ensures r.Ok? ==> r.value.tid == tid
  {
    var w := GetlineFields(p, '-');
    if |w| != 3 then Err(WrongFieldCount(tid, |w|))
    else
      var writeRatio, tableSize, weight := Stoi(w[0]), Stoi(w[1]), Stoi(w[2]);
      if !writeRatio.Converted? then Err(BadNumber(tid, w[0], writeRatio))
      else if !tableSize.Converted? then Err(BadNumber(tid, w[1], tableSize))
      else if !weight.Converted? then Err(BadNumber(tid, w[2], weight))
      else Ok(ReadWrite(tid, tableSize.value, writeRatio.value, weight.value))
  }

  /** What one ';'-part contributes: nothing when it is empty, else its
      workload or its error. */
  datatype PartOutcome = Skipped | Parsed(workload: Workload) | Failed(error: ParseError)

  function OutcomeOf(p: string, tid: nat): (o: PartOutcome)
    ensures o.Skipped? <==> p == []
    ensures o.Parsed? ==> o.workload.tid == tid
  {
    if p == [] then Skipped
    else
      match ParsePart(p, tid)
      case Ok(w) => Parsed(w)
      case Err(e) => Failed(e)
  }

  /** The outcome of every part, the j-th parsed with tid j. */
  function Outcomes(parts: seq<string>): (os: seq<PartOutcome>)
    ensures |os| == |parts|
    ensures forall j :: 0 <= j < |parts| ==> os[j] == OutcomeOf(parts[j], j)
  {
    seq(|parts|, j requires 0 <= j < |parts| => OutcomeOf(parts[j], j))
  }

  /** The workloads of the outcomes, in order; the first failure ends
      everything. A failure reported is the failure of one of the parts, and
      a success holds one workload per part that was not skipped. */
  function Collect(os: seq<PartOutcome>): (r: Result<seq<Workload>>)
    ensures r.Err? ==> exists j :: 0 <= j < |os| && os[j] == Failed(r.error)
    ensures r.Ok? ==> |r.value| == CountKept(os)
  {
    if os == [] then Ok([])
    else
      match Collect(os[..|os| - 1])
      case Err(e) => Err(e)
      case Ok(ws) =>
        match os[|os| - 1]
        case Skipped => Ok(ws)
        case Parsed(w) => Ok(ws + [w])
        case Failed(e) => Err(e)
  }

  /** The workloads a whole spec describes. */
  function ParseSpec(spec: string): Result<seq<Workload>>
  {
    Collect(Outcomes(GetlineFields(spec, ';')))
  }

  /** A failed parse reports the error of parsing one non-empty part, with
      that part's index. */
  lemma ParseSpecError(spec: string)
    ensures var parts := GetlineFields(spec, ';');
      ParseSpec(spec).Err? ==>
        exists j :: 0 <= j < |parts| && parts[j] != [] && ParsePart(parts[j], j) == Err(ParseSpec(spec).error)
  {
  }

  /** Collecting one more outcome. */
  lemma CollectNext(os: seq<PartOutcome>, i: nat, ws: seq<Workload>)
    requires i < |os| && Collect(os[..i]) == Ok(ws)
    ensures Collect(os[..i + 1]) ==
      match os[i]
      case Skipped => Ok(ws)
      case Parsed(w) => Ok(ws + [w])
      case Failed(e) => Err(e)
  {
    assert os[..i + 1][..i] == os[..i];
  }

  /** Once a part has failed, later parts change nothing. */
  lemma {:induction false} ErrorStops(os: seq<PartOutcome>, i: nat)
    requires i <= |os|
    requires Collect(os[..i]).Err?
    ensures Collect(os) == Collect(os[..i])
  {
    if i < |os| {
      var init := os[..|os| - 1];
      assert init[..i] == os[..i];
      ErrorStops(init, i);
    } else {
      assert os[..i] == os;
    }
  }

  /** The number of non-empty parts. */
  function CountKept(os: seq<PartOutcome>): nat
  {
    if os == [] then 0
    else CountKept(os[..|os| - 1]) + (if os[|os| - 1].Skipped? then 0 else 1)
  }

  /** Collecting succeeds exactly when no part failed; it then yields one
      workload per non-empty part, in order of the parts. */
  lemma {:induction false} CollectShape(os: seq<PartOutcome>)
    requires forall j :: 0 <= j < |os| && os[j].Parsed? ==> os[j].workload.tid == j
    ensures Collect(os).Ok? <==> forall j :: 0 <= j < |os| ==> !os[j].Failed?
    ensures Collect(os).Ok? ==>
      var ws := Collect(os).value;
      && |ws| == CountKept(os)
      && (forall k :: 0 <= k < |ws| ==> 0 <= ws[k].tid < |os| && os[ws[k].tid] == Parsed(ws[k]))
      && (forall k :: 0 < k < |ws| ==> ws[k - 1].tid < ws[k].tid)
  {
    if os != [] {
      var n := |os|;
      var init := os[..n - 1];
      assert forall j :: 0 <= j < n - 1 ==> init[j] == os[j];
      CollectShape(init);
    }
  }

  /** Parts that all hold a workload collect to those workloads. */
  lemma {:induction false} CollectAll(os: seq<PartOutcome>, ws: seq<Workload>)
    requires |os| == |ws|
    requires forall j :: 0 <= j < |os| ==> os[j] == Parsed(ws[j])
    ensures Collect(os) == Ok(ws)
  {
    if os != [] {
      var n := |os|;
      CollectAll(os[..n - 1], ws[..n - 1]);
      assert ws == ws[..n - 1] + [ws[n - 1]];
    }
  }

  /** As many parts are kept as there are non-empty parts. */
  lemma {:induction false} CountKeptNonEmpty(parts: seq<string>)
    ensures CountKept(Outcomes(parts)) == |Text.NonEmpty(parts)|
  {
    if parts != [] {
      var n := |parts|;
      CountKeptNonEmpty(parts[..n - 1]);
      assert Outcomes(parts)[..n - 1] == Outcomes(parts[..n - 1]);
    }
  }

  /** What a successful parse looks like: one workload per non-empty part,
      in order; each workload's tid is the index of its part in the
      ';'-split and the workload is what that part parses to. Parsing
      succeeds exactly when every non-empty part does. */
  lemma ParseSpecShape(spec: string)
    ensures var parts := GetlineFields(spec, ';');
      ParseSpec(spec).Ok? <==>
        forall j :: 0 <= j < |parts| && parts[j] != [] ==> ParsePart(parts[j], j).Ok?
    ensures var parts := GetlineFields(spec, ';');
      ParseSpec(spec).Ok? ==>
        var ws := ParseSpec(spec).value;
        && |ws| == |Text.NonEmpty(parts)|
        && (forall k :: 0 <= k < |ws| ==>
              && 0 <= ws[k].tid < |parts|
              && parts[ws[k].tid] != []
              && ParsePart(parts[ws[k].tid], ws[k].tid) == Ok(ws[k]))
        && (forall k :: 0 < k < |ws| ==> ws[k - 1].tid < ws[k].tid)
  {
    var parts := GetlineFields(spec, ';');
    var os := Outcomes(parts);
    CollectShape(os);
    CountKeptNonEmpty(parts);
  }

  function Weights(ws: seq<Workload>): (w: seq<int>)
    ensures |w| == |ws| && forall k :: 0 <= k < |ws| ==> w[k] == ws[k].weight
  {
    seq(|ws|, k requires 0 <= k < |ws| => ws[k].weight)
  }

  /** The loop body of ParseFromWorkloadSpec for the non-empty i-th part:
      split it at '-', check the field count, convert the three fields in
      order, and build the workload with tid i. */
  method ParseOnePart(p: string, tid: nat) returns (r: Result<Workload>)
    ensures r == ParsePart(p, tid)
  {
    var wparts := Split(p, '-');
    if |wparts| != 3 {
      return Err(WrongFieldCount(tid, |wparts|));
    }
    var writeRatio := Stoi(wparts[0]);
    if !writeRatio.Converted? {
      return Err(BadNumber(tid, wparts[0], writeRatio));
    }
    var tableSize := Stoi(wparts[1]);
    if !tableSize.Converted? {
      return Err(BadNumber(tid, wparts[1], tableSize));
    }
    var tableWeight := Stoi(wparts[2]);
    if !tableWeight.Converted? {
      return Err(BadNumber(tid, wparts[2], tableWeight));
    }
    r := Ok(ReadWrite(tid, tableSize.value, writeRatio.value, tableWeight.value));
  }

  /** ParseFromWorkloadSpec: the workloads of the spec and a weighted
      selector over them. `draw` stands for the random numbers the shuffle
      of the selector's dice uses. A part without exactly three fields (an
      assertion in the driver) or with a field std::stoi rejects (an
      exception) ends in an error. */
  method ParseFromWorkloadSpec(spec: string, draw: nat -> nat) returns (r: Result<Mixture>)
    ensures r.Ok? <==> ParseSpec(spec).Ok?
    ensures r.Ok? ==> r.value.workloads == ParseSpec(spec).value
    ensures r.Ok? ==> multiset(r.value.selector.dice) == multiset(Dice.Expand(Weights(r.value.workloads)))
    ensures r.Err? ==> r.error == ParseSpec(spec).error
  {
    var workloads: seq<Workload> := [];
    var parts := Split(spec, ';');
    ghost var os := Outcomes(parts);
    var i := 0;
    while i < |parts|
      invariant 0 <= i <= |parts|
      invariant Collect(os[..i]) == Ok(workloads)
    {
      CollectNext(os, i, workloads);
      var p := parts[i];
      if p == [] {
        i := i + 1;
        continue;
      }
      var part := ParseOnePart(p, i);
      match part {
        case Err(e) =>
          r := Err(e);
          ErrorStops(os, i + 1);
          return;
        case Ok(w) =>
          workloads := workloads + [w];
      }
      i := i + 1;
    }
    assert os[..|parts|] == os;
    var selector := Dice.NewWeightedSelector(Weights(workloads), draw);
    r := Ok(Mixture(workloads, selector));
  }

  // ---------------------------------------------------------------------
  // Size

  /** The sum of the table sizes. */
  function TotalTableSize(ws: seq<Workload>): int
  {
    if ws == [] then 0 else TotalTableSize(ws[..|ws| - 1]) + ws[|ws| - 1].tableSize
  }

  /** size_t arithmetic wraps modulo 2^64. */
  const SizeModulus: int := 0x1_0000_0000_0000_0000

  /** Size: the sum of the workloads' table sizes, accumulated in a size_t
      (each int table size converted to size_t). */
  method Size(mix: Mixture) returns (s: nat)
    ensures s < SizeModulus
    ensures s == TotalTableSize(mix.workloads) % SizeModulus
  {
    var ws := mix.workloads;
    s := 0;
    for i := 0 to |ws|
      invariant s == TotalTableSize(ws[..i]) % SizeModulus
    {
      assert ws[..i + 1][..i] == ws[..i];
      s := (s + ws[i].tableSize % SizeModulus) % SizeModulus;
    }
    assert ws[..|ws|] == ws;
  }

  /** Parsed table sizes are non-negative ints, so the sum cannot wrap for
      fewer than 2^33 workloads. */
  lemma {:induction false} TotalTableSizeBounds(ws: seq<Workload>)
    requires forall k :: 0 <= k < |ws| ==> 0 <= ws[k].tableSize <= IntMax
    ensures 0 <= TotalTableSize(ws) <= |ws| * IntMax
  {
    if ws != [] {
      TotalTableSizeBounds(ws[..|ws| - 1]);
    }
  }

  /** Parsed table sizes do not make Size wrap while the workloads are
      fewer than 2^64 / INT_MAX (a little over 2^33): Size is then the
      exact sum. */
  lemma SizeWithoutWrap(ws: seq<Workload>)
    requires forall k :: 0 <= k < |ws| ==> 0 <= ws[k].tableSize <= IntMax
    requires |ws| * IntMax < SizeModulus
    ensures TotalTableSize(ws) % SizeModulus == TotalTableSize(ws)
  {
    TotalTableSizeBounds(ws);
  }

  // ---------------------------------------------------------------------
  // Selecting a workload

  /** WorkloadMixture::work/fill: the workload the selector picks for a
      random number. */
  function Chosen(mix: Mixture, rand: nat): (w: Workload)
    requires |mix.selector.dice| > 0
    requires multiset(mix.selector.dice) == multiset(Dice.Expand(Weights(mix.workloads)))
    ensures w in mix.workloads && w.weight > 0
  {
    var k := rand % |mix.selector.dice|;
    Dice.FaceIsWorkload(Weights(mix.workloads), mix.selector.dice, k);
    mix.workloads[Dice.WeightedSelect(mix.selector, rand)]
  }

  // ---------------------------------------------------------------------
  // Writing a spec

  /** Workloads that a spec string can describe: tids numbered from 0 and
      fields that are non-negative ints. */
  predicate Describable(ws: seq<Workload>)
  {
    forall k :: 0 <= k < |ws| ==>
      && ws[k].tid == k
      && 0 <= ws[k].writeRatio <= IntMax
      && 0 <= ws[k].tableSize <= IntMax
      && 0 <= ws[k].weight <= IntMax
  }

  /** The spec text of one workload: write_ratio-table_size-weight. */
  function PartText(w: Workload): string
    requires w.writeRatio >= 0 && w.tableSize >= 0 && w.weight >= 0
  {
    Join([DecimalString(w.writeRatio), DecimalString(w.tableSize), DecimalString(w.weight)], '-')
  }

  function PartTexts(ws: seq<Workload>): (ts: seq<string>)
    requires Describable(ws)
    ensures |ts| == |ws|
    ensures forall k :: 0 <= k < |ws| ==> ts[k] == PartText(ws[k])
  {
    if ws == [] then [] else PartTexts(ws[..|ws| - 1]) + [PartText(ws[|ws| - 1])]
  }

  /** The spec string of a list of workloads, each part ended by ';'. */
  function FormatSpec(ws: seq<Workload>): string
    requires Describable(ws)
  {
    Join(PartTexts(ws) + [[]], ';')
  }

  lemma {:induction false} DigitsAvoid(s: string, c: char)
    requires AllDigits(s) && !IsDigit(c)
    ensures c !in s
  {
    if s != [] {
      DigitsAvoid(s[..|s| - 1], c);
      assert s == s[..|s| - 1] + [s[|s| - 1]];
    }
  }

  /** One workload's text parses back to it. */
  lemma PartRoundTrip(w: Workload)
    requires 0 <= w.writeRatio <= IntMax && 0 <= w.tableSize <= IntMax && 0 <= w.weight <= IntMax
    requires w.tid >= 0
    ensures ParsePart(PartText(w), w.tid) == Ok(w)
    ensures ';' !in PartText(w) && PartText(w) != []
  {
    var fs := [DecimalString(w.writeRatio), DecimalString(w.tableSize), DecimalString(w.weight)];
    DigitsAvoid(fs[0], '-');
    DigitsAvoid(fs[1], '-');
    DigitsAvoid(fs[2], '-');
    GetlineFieldsSeparated(fs, '-');
    DecimalRoundTrip(w.writeRatio);
    DecimalRoundTrip(w.tableSize);
    DecimalRoundTrip(w.weight);
    DigitsAvoid(fs[0], ';');
    DigitsAvoid(fs[1], ';');
    DigitsAvoid(fs[2], ';');
    JoinAvoids(fs, '-', ';');
  }

  /** The text of a part with the three fields a, b and c, ended by a
      further '-' when trailing is set. */
  function PartOf(a: string, b: string, c: string, trailing: bool): string
  {
    a + ['-'] + b + ['-'] + c + (if trailing then ['-'] else [])
  }

  lemma Join3(a: string, b: string, c: string, d: char)
    ensures Join([a, b, c], d) == a + [d] + b + [d] + c
  {
    assert [a, b, c][..2] == [a, b];
    assert [a, b][..1] == [a];
    assert Join([a, b], d) == a + [d] + b;
  }

  /** A part parses only when it is three decimal digit fields that each
      fit an int, possibly followed by one '-', and the workload takes its
      write ratio, table size and weight from the first, second and third
      field. */
  lemma ParsePartText(p: string, tid: nat)
    ensures ParsePart(p, tid).Ok? ==>
      exists a, b, c, trailing ::
        && IsDigits(a) && IsDigits(b) && IsDigits(c)
        && DecimalValue(a) <= IntMax && DecimalValue(b) <= IntMax && DecimalValue(c) <= IntMax
        && p == PartOf(a, b, c, trailing)
        && ParsePart(p, tid).value == ReadWrite(tid, DecimalValue(b), DecimalValue(a), DecimalValue(c))
  {
    var w := GetlineFields(p, '-');
    if ParsePart(p, tid).Ok? {
      GetlineJoin(p, '-');
      assert w == [w[0], w[1], w[2]];
      Join3(w[0], w[1], w[2], '-');
      var trailing := p != [] && p[|p| - 1] == '-';
      assert p == PartOf(w[0], w[1], w[2], trailing);
    }
  }

  /** Conversely, every such text parses, to the workload its fields
      denote. */
  lemma ParsePartFromText(a: string, b: string, c: string, trailing: bool, tid: nat)
    requires IsDigits(a) && IsDigits(b) && IsDigits(c)
    requires DecimalValue(a) <= IntMax && DecimalValue(b) <= IntMax && DecimalValue(c) <= IntMax
    ensures ParsePart(PartOf(a, b, c, trailing), tid) == Ok(ReadWrite(tid, DecimalValue(b), DecimalValue(a), DecimalValue(c)))
  {
    PartOfFields(a, b, c, trailing);
  }

  /** The fields of such a text are its three digit strings. */
  lemma PartOfFields(a: string, b: string, c: string, trailing: bool)
    requires IsDigits(a) && IsDigits(b) && IsDigits(c)
    ensures GetlineFields(PartOf(a, b, c, trailing), '-') == [a, b, c]
  {
    DigitsAvoid(a, '-');
    DigitsAvoid(b, '-');
    DigitsAvoid(c, '-');
    Join3(a, b, c, '-');
    if trailing {
      GetlineFieldsTerminated([a, b, c], '-');
      assert [a, b, c] + [[]] == [a, b, c, []];
      assert [a, b, c, []][..3] == [a, b, c];
      assert Join([a, b, c, []], '-') == Join([a, b, c], '-') + ['-'];
    } else {
      GetlineFieldsSeparated([a, b, c], '-');
      assert PartOf(a, b, c, false) == Join([a, b, c], '-');
    }
  }

  /** How a part fails: with WrongFieldCount exactly when it does not have
      three fields, and otherwise with BadNumber on its first field that
      std::stoi refuses, carrying that refusal. */
  lemma ParsePartErrors(p: string, tid: nat, n: nat)
    ensures ParsePart(p, tid) == Err(WrongFieldCount(tid, n)) <==> n == |GetlineFields(p, '-')| != 3
    ensures var w := GetlineFields(p, '-');
      ParsePart(p, tid).Err? && ParsePart(p, tid).error.BadNumber? ==>
        && |w| == 3
        && exists i :: 0 <= i < 3 && ParsePart(p, tid).error == BadNumber(tid, w[i], Stoi(w[i]))
             && !Stoi(w[i]).Converted? && forall j :: 0 <= j < i ==> Stoi(w[j]).Converted?
  {
  }

  /** Parsing a written spec gives back the workloads it was written from. */
  lemma FormatParseRoundTrip(ws: seq<Workload>)
    requires Describable(ws)
    ensures ParseSpec(FormatSpec(ws)) == Ok(ws)
  {
    var ts := PartTexts(ws);
    forall k | 0 <= k < |ts| ensures ';' !in ts[k] {
      PartRoundTrip(ws[k]);
    }
    GetlineFieldsTerminated(ts, ';');
    var os := Outcomes(ts);
    forall j | 0 <= j < |ws| ensures os[j] == Parsed(ws[j]) {
      PartRoundTrip(ws[j]);
    }
    CollectAll(os, ws);
    assert ws[..|ws|] == ws;
  }
}
